=== FILE: README.md ===
# DexScreener bot core in Dafny

This project models the decision and state logic of the DexScreener bot. The bot polls a
market-data API for new trading pairs. It keeps the pairs it admits in a PostgreSQL store and
records PUMP and RUG events when a pair's price moves sharply. The model covers four pieces:

- **Ingestion filter** (`Filter`). This is `apply_filters`. It checks the chain allowlist, the
  symbol and creator blacklists, and the liquidity and volume minimums. Any field that is
  missing or does not parse means rejection.
- **Price classifier** (`Classifier`). This is `analyze_price_change`. It takes the two newest
  observations of a pair by timestamp and computes `(curr - prev) / prev * 100`. PUMP is
  checked first, then RUG. There is no event with fewer than two observations or when the
  previous price is 0.
- **Store** (`Store`, `Persistence`). These are the three tables of `setup_database`, with the
  primary key on `tokens.pair_address` and the two foreign keys into it. On top of them sit the
  bot's writes: `save_token` (insert-or-ignore), `save_price_history` and `record_event`
  (append). Each write either commits or rolls back to the unchanged store. The reads are
  `get_stats` and `get_recent_tokens`.
- **One poll cycle** (`Cycle`). This is the body of `run`. It filters the new pairs and saves
  each admitted pair's token and price. Then, for every tracked pair address, it saves the
  price from that pair's snapshot, classifies, and records any event.

Shared pieces:

- `Common` holds `Option`, `Result` and `Field`. `Field` is a record field that is
  `Absent`, `Malformed` or `Present`.
- `Text` is ASCII lower-casing.
- `Pairs` holds the pair record and the configuration.
- `Ranking` is one definition of `ORDER BY key DESC LIMIT k`. It serves three queries:
  "latest two prices", "recent tokens" and `MAX(timestamp)`.

Prices are `real`. Timestamps are natural numbers. Every write takes the clock as the
parameter `now`. Fetched pairs and per-address snapshots are parameters of the cycle.

Behaviours of the source that the model keeps, although they may surprise a reader:

- **Creator comparison.** Only the pair's creator is lower-cased (bot.py:352, 356); the
  blacklist entries are not. So an entry with an upper-case letter never matches anything; see
  `Filter.UpperCaseDevEntryInert`. The chain comparison lower-cases both sides (bot.py:346-347).
  The symbol comparison is exact (bot.py:354-355).
- **Failed writes.** `save_token`, `save_price_history` and `record_event` catch every
  exception, log it, roll back and return normally (bot.py:241-243, 262-264, 283-285). So the
  model's writes return the unchanged store instead of an error.
- **Missing `pairAddress`.** An admitted pair without a `pairAddress` key raises a `KeyError`
  at bot.py:418, outside the per-write handlers. That ends the cycle and starts the 60-second
  backoff (bot.py:431-433).
- **Null `pairAddress`.** A pair whose `pairAddress` is JSON null fails the token insert on
  the primary key (db.py:17), but its price row is stored with a NULL address: the
  `price_history.pair_address` column is nullable (db.py:30) and a NULL foreign key is not
  checked. Such a row counts for the last-update time in `get_stats`.
- **Events.** An event is only stored and logged (bot.py:282); nothing else is notified.

## Model

| member | source | states |
|---|---|---|
| `Text.Lower` | bot.py:346 | lower-casing keeps the length, leaves no upper-case letter, and changes only upper-case letters |
| `Text.InLowerAll` | bot.py:346 | the lower-cased chain list contains `x` exactly when some configured chain lower-cases to `x` |
| `Filter.ApplyFilters` | bot.py:342-370 | a pair is admitted iff its chain matches a configured chain case-insensitively, neither symbol is blacklisted (exact match), the lower-cased creator (default empty) is not a blacklisted dev, and liquidity and 24h volume parse and are at least the minimums; each condition alone rejects, and any missing field rejects rather than failing |
| `Filter.ChainIdCaseIgnored` | bot.py:346-347 | changing the case of a pair's chain id never changes the verdict |
| `Filter.ConfiguredChainCaseIgnored` | bot.py:346 | lower-casing the configured chain list never changes the verdict |
| `Filter.UpperCaseDevEntryInert` | bot.py:352-357 | adding a creator blacklist entry that contains an upper-case letter never changes any verdict |
| `Filter.SymbolCaseMatters` | bot.py:354-355 | a blacklisted "pepe" does not reject an otherwise admissible pair whose base symbol is "PEPE" |
| `Ranking.TopK` | bot.py:307-311 | `ORDER BY key DESC LIMIT k` returns min(k, number of keyed rows) keyed rows in strictly decreasing order (ties: later row first), and every row left out comes after the last one returned |
| `Store.Valid` | db.py:17-45 | the database constraints: `pair_address` is the primary key of `tokens`; a price row's address, when not NULL, names a token; an event's address always names a token |
| `Store.ParseLabel` | bot.py:396-400 | the stored `event_type` text determines the kind: `"PUMP"` and `"RUG"` read back as the kinds they were written for, and no other text names a kind |
| `Store.InsertToken` | bot.py:224-230 | insert with `ON CONFLICT DO NOTHING`: a present key leaves the store unchanged; otherwise the row is appended; the key set gains exactly that key; the primary and foreign keys still hold |
| `Store.AppendPrice` | db.py:27-35 | a price row naming an address without a token fails with `NotFound` and nothing else; a row with a NULL address or a tracked one is appended, and the constraints still hold |
| `Store.AppendEvent` | db.py:38-45 | an event row for an address without a token fails with `NotFound`; otherwise it is appended and the constraints still hold |
| `Store.KeyHasOneRow` | db.py:17 | under the primary key, every present pair address has exactly one token row |
| `Store.RowsAreKeys` | db.py:17 | under the primary key, the number of token rows equals the number of distinct pair addresses |
| `Store.SetupDatabase` | db.py:14-54 | a backend failure is passed on as an error; otherwise each existing table keeps its rows and each missing table starts empty |
| `Store.SetupIdempotent` | db.py:15-48 | setting up an already set-up database returns it unchanged; a fresh one is empty and satisfies the constraints |
| `Persistence.TokenRow` | bot.py:231-239 | the inserted row copies address, chain and symbols from the pair; the creator is stored as given (not lower-cased), the empty string when the key is missing and NULL when it is not text; the creation time is copied or NULL; first-seen is the clock; a missing required field gives no row |
| `Persistence.SaveToken` | bot.py:220-243 | adds at most one row, which matches the pair; a known address or a missing field leaves the store unchanged; the price and event tables are untouched; the constraints still hold |
| `Persistence.SaveTokenTwice` | bot.py:224-240 | saving the same pair again changes nothing, and its address then has exactly one token row |
| `Persistence.SavePriceHistory` | bot.py:245-264 | the store changes iff price, volume and liquidity all parse and the address is NULL or has a token; the change appends exactly that observation and nothing else |
| `Persistence.RecordEvent` | bot.py:266-285 | the store changes iff the address has a token; the change appends exactly that event and nothing else |
| `Persistence.LastUpdate` | bot.py:295-296 | `MAX(timestamp)` is absent iff there are no observations, and otherwise is the timestamp of an observation and no smaller than any other |
| `Persistence.GetStats` | bot.py:288-302 | the token count equals the number of distinct tracked addresses, the event count is the number of events, and the last update is the latest observation time, or "Never" when there is none |
| `Persistence.StatsAfterSaveToken` | bot.py:291-292 | under the primary key, `save_token` raises the reported token count by one exactly when it changed the store, and leaves the event count alone |
| `Persistence.StatsAfterRecordEvent` | bot.py:293-294 | `record_event` raises the reported event count by one exactly when it changed the store, and leaves the token count alone |
| `Persistence.StatsAfterSavePrice` | bot.py:295-296 | a committed `save_price_history` moves the reported last update to the later of its previous value and the write's clock |
| `Persistence.GetRecentTokens` | bot.py:304-313 | returns min(limit, token count) rows of the table, sorted by first-seen descending, with distinct addresses, and no omitted token was first seen later than the last one returned; `DefaultRecentLimit` is the default limit of 20 |
| `Persistence.RecentTokensOrdered` | bot.py:307-312 | the recent-token rows taken from the ranking are sorted, complete up to the limit, and distinct under the primary key |
| `Classifier.Classify` | bot.py:385-402 | nothing when the previous price is 0; otherwise nothing exactly when the percent change lies strictly between the rug and pump thresholds; a reported change times the previous price equals the price difference times 100; PUMP only at or above the pump threshold; RUG only at or below the rug threshold and below the pump threshold |
| `Classifier.ClassifyByPriceLevel` | bot.py:394-402 | for a positive previous price: PUMP iff `curr*100 >= prev*(100+pump)`; RUG iff below that level and `curr*100 <= prev*(100+rug)`; nothing iff strictly between the two levels |
| `Classifier.ClassifyByPriceLevelNegative` | bot.py:391-402 | for a negative previous price, which only the zero guard lets through: PUMP iff `curr*100 <= prev*(100+pump)`; RUG iff above that level and `curr*100 >= prev*(100+rug)`; nothing iff strictly between the two levels |
| `Classifier.DefaultThresholds` | bot.py:131-133 | with the default thresholds 100 and -90, PUMP iff the price at least doubled, RUG iff it fell to a tenth or less |
| `Classifier.ClassifyExamples` | bot.py:391-402 | prev 100 and curr 250 give PUMP 150; prev 100 and curr 5 give RUG -95; prev 100 and curr 150 give nothing; prev 0 gives nothing |
| `Classifier.LatestTwo` | bot.py:376-384 | returns rows of the given address only; exactly two iff the address has two observations; then they are the newest and second-newest by timestamp |
| `Classifier.NewestTwoUnique` | bot.py:380-381 | the newest two observations of an address are uniquely determined |
| `Classifier.AnalyzePriceChange` | bot.py:372-405 | nothing when the address has fewer than two observations; otherwise the classification of the newest price against the second-newest, whichever rows they are |
| `Classifier.AnalyzeIgnoresOthers` | bot.py:376-382 | appending observations of other addresses, or with a NULL address, leaves the analysis of an address unchanged |
| `Cycle.FilterPairs` | bot.py:333-334 | keeps exactly the listed pairs the filter admits |
| `Cycle.FilterPairsKeepsOrder` | bot.py:334 | filtering keeps listing order and duplicates: the filter of a concatenation is the concatenation of the filters, and a single pair is kept iff it is admitted |
| `Cycle.TrackStep` | bot.py:423-427 | tokens are unchanged; at most one price row and one event row are appended; a price row is appended iff a snapshot was fetched, the address is tracked and the snapshot parses, and it is that snapshot's observation; an event is appended iff a snapshot was fetched, the address is tracked and the newest two observations classify; the event carries that classification |
| `Cycle.PumpScenario` | bot.py:424-427 | a tracked pair observed at 100, whose snapshot shows 250, gets one PUMP event of 150 percent |
| `Cycle.SnapshotAgainstLatest` | bot.py:424-427 | when the clock has not gone back, a tracked pair's saved snapshot price is classified against the newest price stored before it |
| `Cycle.IngestNewPairs` | bot.py:415-418 | it aborts iff some admitted pair lacks `pairAddress`; it only appends tokens and prices; every new token and every new price row comes from an admitted pair handled before the first one without an address (all of them without an abort); the new price rows are observations of those pairs, at most one per pair and in listing order, so there are no more rows than pairs; each such pair with the required fields is tracked afterwards, and each such pair whose numbers parse and whose address is null, already tracked or inserted by it has its observation among the new price rows; the constraints still hold |
| `Cycle.AnalyzeTracked` | bot.py:420-427 | tokens are unchanged and rows only appended; every new price row is the observation of a fetched snapshot; under the constraints, for every tracked address: it gets at most one new price row, which is its snapshot's observation and is there exactly when the snapshot parses, a new event for it exists iff a snapshot was fetched and its newest two observations classify, there is at most one, and it carries the classification |
| `Cycle.Cycle` | bot.py:412-433 | the constraints are kept; rows are only appended; every new token comes from an admitted listed pair handled before the first one without `pairAddress`; `mark` splits the new price rows: those before it are observations of such pairs, at most one per pair and in listing order, and those after it are observations of fetched snapshots; those pairs with the required fields are tracked and their observations saved even when the pass aborts; a missing `pairAddress` means a 60-second backoff, no row after `mark` and no new event; otherwise the delay is the scan interval, and every tracked address gets, after `mark`, at most one price row, its snapshot's observation when that parses, and exactly one event when its newest two observations call for one, none otherwise |
| `Cycle.InOrderObserved` | bot.py:416-418 | rows written in listing order, at most one per pair, are each the observation of one of the pairs and number no more than the pairs |
| `Cycle.UnparsedSnapshotRepeats` | bot.py:245-264 | for a tracked pair whose snapshot's numbers do not parse, the save commits nothing, and the step (bot.py:424-427) records an event exactly when the newest two stored observations already classify, with that classification |
| `Cycle.SteadyPriceQuiet` | bot.py:393-402 | a price compared with an equal one records nothing when the rug threshold is negative and the pump threshold positive |
| `Cycle.CycleAsWritten` | bot.py:421-433 | with the snapshot fetch as written, the cycle records no event, and any cycle with a tracked token ends in the 60-second backoff |

## Findings

| source | as written | input that shows it | evidently intended | confidence | as-written member | corrected member |
|---|---|---|---|---|---|---|
| bot.py:424 | the analysis loop calls `self.fetch_pair_data(pair_address)`, but `DexScreenerBot` defines no such method, so the call raises `AttributeError` | any cycle in which `tokens` has a row when the analysis loop starts | fetch the pair's current snapshot, save its price, classify it and record any event | high (not executed) | `Cycle.CycleAsWritten` | `Cycle.Cycle` |

## Left out

- HTTP fetching is not modelled. This covers `fetch_new_pairs`'s request and status handling, the undefined `fetch_pair_data`, and the rugcheck, pocket-universe and toxi URLs. The listed pairs and the per-address snapshots are parameters. A failed listing is an empty list.
- Database connection and SQL mechanics are not modelled: the psycopg2 connection in db.py:6-11 (with its mismatched config keys), cursors and commits. Each write is one state transition that commits or rolls back.
- Backend failures other than a missing field or a foreign-key violation are not modelled; no other write failure is given as an input. `SetupDatabase` is the exception: it takes a `backendUp` flag.
- The tkinter panel, the Telegram handlers and updater, and `get_config_summary` are not modelled. They are presentation and external channels.
- The thread, the `running` flag, `stop()`, `time.sleep` and the loop itself are not modelled. `Cycle.Cycle` covers one pass and returns the number of seconds the loop would sleep. It also returns `mark`, the number of price rows when the analysis loop starts; the source has no such value, and it serves only to tell the two loops' rows apart in the contract.
- Loading and writing the configuration file (bot.py:129-163) and logging are not modelled, because they are file I/O. The configuration is an immutable record, and `DefaultConfig` holds the defaults.
- Floating point is not modelled. `float()` either succeeds (`Present`) or raises. NaN and infinities are left out; a NaN liquidity would pass the `<` checks in the source. The single-precision rounding of the `REAL` columns is left out too.
- `datetime.now()` is the parameter `now`, a natural number; ISO timestamp strings are not modelled. One `now` serves a whole cycle.
- SQL leaves the order of equal sort keys unspecified. The model lists the later row first, which matches the append order under a clock that never goes back.
- `Text.Lower` lower-cases ASCII letters only, while Python's `str.lower` covers all of Unicode.
- `Filter.ApplyFilters`: a `baseToken` or `quoteToken` that is not an object is treated like a missing key. Both raise in the source.
- `Persistence.TokenRow`: a non-text address, chain or symbol is treated as a failed insert. A non-text creator or creation time is stored as NULL. PostgreSQL's own type coercions are not modelled.
- `Persistence.GetRecentTokens`: returns whole token rows. The query selects their first four columns.
- `Cycle.IngestNewPairs`: a `pairAddress` that is present but neither text nor null is treated like null. PostgreSQL's coercion of such a value to text is not modelled.
- `Store.SetupDatabase`: models setup as the intended step: it creates the missing tables and reports only a backend failure. As written, the constructor calls `self.setup_database`, but db.py defines it as a module-level function taking `self`; db.py also never imports `logging`, so the logging call after the commit (db.py:49) raises `NameError` and the handler's own logging call (db.py:53) raises it again.
- `Cycle.AnalyzeTracked`: the per-address promises are stated under the primary key, which `setup_database` creates. Without it one address could be analysed twice in a pass.
- No cooldown between events is modelled, as the source has none. A steady price raises nothing, because each snapshot is compared with the equal row before it (`SteadyPriceQuiet`). Events repeat in two cases: when a fetched snapshot's numbers do not parse, the save rolls back (bot.py:262-264) but the same two stored rows are classified again (bot.py:426-427), so the same event is recorded every cycle (`UnparsedSnapshotRepeats`); and when the price crosses a threshold again in each cycle.

=== FILE: classifier.dfy ===
/** The price classifier: the two newest observations of a pair decide PUMP, RUG or nothing. */
module Classifier {
  import opened Common
  import opened Pairs
  import opened Ranking
  import opened Store

  /** A classification: the kind and the percent change that triggered it. */
  datatype Detection = Detection(kind: EventKind, priceChange: real)

  /** Decides on the current and previous price; a previous price of zero gives nothing. */
  function Classify(curr: real, prev: real, cfg: Config): (r: Option<Detection>)
    ensures prev == 0.0 ==> r.None?
    ensures r.Some? ==> r.value.priceChange * prev == (curr - prev) * 100.0
    ensures r.Some? && r.value.kind == Pump ==> r.value.priceChange >= cfg.pumpThreshold
    ensures r.Some? && r.value.kind == Rug ==> cfg.rugThreshold >= r.value.priceChange && r.value.priceChange < cfg.pumpThreshold
    ensures prev != 0.0 ==> (r.None? <==> cfg.rugThreshold < (curr - prev) / prev * 100.0 < cfg.pumpThreshold)
  {
    if prev == 0.0 then None
    else
      var change := (curr - prev) / prev * 100.0;
      if change >= cfg.pumpThreshold then Some(Detection(Pump, change))
      else if change <= cfg.rugThreshold then Some(Detection(Rug, change))
      else None
  }

  /** For a positive previous price the outcome depends only on where the current price lies
      relative to the two threshold levels `prev * (1 + threshold / 100)`; PUMP is checked first. */
  lemma ClassifyByPriceLevel(curr: real, prev: real, cfg: Config)
    requires prev > 0.0
    ensures var r := Classify(curr, prev, cfg);
            && (r.Some? && r.value.kind == Pump <==> curr * 100.0 >= prev * (100.0 + cfg.pumpThreshold))
            && (r.Some? && r.value.kind == Rug <==>
                  curr * 100.0 < prev * (100.0 + cfg.pumpThreshold) && curr * 100.0 <= prev * (100.0 + cfg.rugThreshold))
            && (r.None? <==>
                  prev * (100.0 + cfg.rugThreshold) < curr * 100.0 < prev * (100.0 + cfg.pumpThreshold))
  {
    var change := (curr - prev) / prev * 100.0;
    assert change * prev == (curr - prev) * 100.0;
    ScaleByPositive(change, cfg.pumpThreshold, prev);
    ScaleByPositive(change, cfg.rugThreshold, prev);
    ScaleByPositive(cfg.rugThreshold, change, prev);
  }

  /** For a negative previous price (which the classifier does not exclude) dividing by it
      flips the comparisons: PUMP at or below the pump level, RUG at or above the rug level. */
  lemma ClassifyByPriceLevelNegative(curr: real, prev: real, cfg: Config)
    requires prev < 0.0
    ensures var r := Classify(curr, prev, cfg);
            && (r.Some? && r.value.kind == Pump <==> curr * 100.0 <= prev * (100.0 + cfg.pumpThreshold))
            && (r.Some? && r.value.kind == Rug <==>
                  curr * 100.0 > prev * (100.0 + cfg.pumpThreshold) && curr * 100.0 >= prev * (100.0 + cfg.rugThreshold))
            && (r.None? <==>
                  prev * (100.0 + cfg.pumpThreshold) < curr * 100.0 < prev * (100.0 + cfg.rugThreshold))
  {
    var change := (curr - prev) / prev * 100.0;
    assert change * prev == (curr - prev) * 100.0;
    ScaleByPositive(change, cfg.pumpThreshold, -prev);
    ScaleByPositive(change, cfg.rugThreshold, -prev);
    ScaleByPositive(cfg.rugThreshold, change, -prev);
  }

  lemma ScaleByPositive(x: real, y: real, k: real)
    requires k > 0.0
    ensures x >= y <==> x * k >= y * k
  {
    if x >= y {
      assert (x - y) * k >= 0.0;
    } else {
      assert (y - x) * k > 0.0;
    }
  }

  /** With the default thresholds (100 and -90): PUMP when the price at least doubles,
      RUG when it falls to a tenth or less. */
  lemma DefaultThresholds(curr: real, prev: real)
    requires prev > 0.0
    ensures var r := Classify(curr, prev, DefaultConfig);
            && (r.Some? && r.value.kind == Pump <==> curr >= 2.0 * prev)
            && (r.Some? && r.value.kind == Rug <==> curr * 10.0 <= prev)
  {
    ClassifyByPriceLevel(curr, prev, DefaultConfig);
  }

  /** prev = 100, curr = 250 is a PUMP of 150 percent; prev = 100, curr = 5 a RUG of -95 percent. */
  lemma ClassifyExamples()
    ensures Classify(250.0, 100.0, DefaultConfig) == Some(Detection(Pump, 150.0))
    ensures Classify(5.0, 100.0, DefaultConfig) == Some(Detection(Rug, -95.0))
    ensures Classify(150.0, 100.0, DefaultConfig).None?
    ensures Classify(7.0, 0.0, DefaultConfig).None?
  {
  }

  /** Row `i` is newer than row `j`: a later timestamp, or the same timestamp on a later row. */
  predicate NewerRow(h: seq<PriceRow>, i: int, j: int)
  {
    && 0 <= i < |h| && 0 <= j < |h|
    && (h[i].timestamp > h[j].timestamp || (h[i].timestamp == h[j].timestamp && i > j))
  }

  /** Rows `i` and `j` are the newest and second-newest observations of `addr`. */
  predicate IsNewestTwo(h: seq<PriceRow>, addr: string, i: int, j: int)
  {
    && 0 <= i < |h| && 0 <= j < |h|
    && h[i].pairAddress == Some(addr) && h[j].pairAddress == Some(addr)
    && NewerRow(h, i, j)
    && forall x :: 0 <= x < |h| && h[x].pairAddress == Some(addr) && x != i && x != j ==> NewerRow(h, j, x)
  }

  /** There are at least two observations of `addr`. */
  predicate TwoObservations(h: seq<PriceRow>, addr: string)
  {
    exists i, j :: 0 <= i < j < |h| && h[i].pairAddress == Some(addr) && h[j].pairAddress == Some(addr)
  }

  function PriceKeys(h: seq<PriceRow>, addr: string): seq<Option<nat>>
  {
    seq(|h|, i requires 0 <= i < |h| => if h[i].pairAddress == Some(addr) then Some(h[i].timestamp) else None)
  }

  /** `... WHERE pair_address = addr ORDER BY timestamp DESC LIMIT 2`, as row positions. */
  function LatestTwo(h: seq<PriceRow>, addr: string): (r: seq<int>)
    ensures |r| <= 2
    ensures forall a :: 0 <= a < |r| ==> 0 <= r[a] < |h| && h[r[a]].pairAddress == Some(addr)
    ensures |r| == 2 <==> TwoObservations(h, addr)
    ensures |r| == 2 ==> IsNewestTwo(h, addr, r[0], r[1])
  {
    var keys := PriceKeys(h, addr);
    var r := TopK(keys, 2);
    LatestTwoFacts(h, addr, keys, r);
    r
  }

  lemma LatestTwoFacts(h: seq<PriceRow>, addr: string, keys: seq<Option<nat>>, r: seq<int>)
    requires keys == PriceKeys(h, addr) && r == TopK(keys, 2)
    ensures forall a :: 0 <= a < |r| ==> 0 <= r[a] < |h| && h[r[a]].pairAddress == Some(addr)
    ensures |r| == 2 <==> TwoObservations(h, addr)
    ensures |r| == 2 ==> IsNewestTwo(h, addr, r[0], r[1])
  {
    assert forall i :: Ranked(keys, i) <==> 0 <= i < |h| && h[i].pairAddress == Some(addr);
    assert forall i, j :: Precedes(keys, i, j) ==> NewerRow(h, i, j);
    if |r| == 2 {
      assert Precedes(keys, r[0], r[1]);
      assert 0 <= r[1] < r[0] < |h| || 0 <= r[0] < r[1] < |h|;
      forall x | 0 <= x < |h| && h[x].pairAddress == Some(addr) && x != r[0] && x != r[1]
        ensures NewerRow(h, r[1], x)
      {
        assert Ranked(keys, x) && x !in r;
      }
    }
    if TwoObservations(h, addr) {
      var i, j :| 0 <= i < j < |h| && h[i].pairAddress == Some(addr) && h[j].pairAddress == Some(addr);
      assert Ranked(keys, i) && Ranked(keys, j);
    }
  }

  /** The newest two observations are determined by the history. */
  lemma NewestTwoUnique(h: seq<PriceRow>, addr: string, i: int, j: int, a: int, b: int)
    requires IsNewestTwo(h, addr, i, j) && IsNewestTwo(h, addr, a, b)
    ensures i == a && j == b
  {
  }

  /** `analyze_price_change`: classify the newest observation against the one before it. */
  function AnalyzePriceChange(s: Store, addr: string, cfg: Config): (r: Option<Detection>)
    ensures !TwoObservations(s.history, addr) ==> r.None?
    ensures forall i, j :: IsNewestTwo(s.history, addr, i, j) ==>
              r == Classify(s.history[i].priceUsd, s.history[j].priceUsd, cfg)
  {
    var top := LatestTwo(s.history, addr);
    if |top| < 2 then None
    else
      var h := s.history;
      assert forall i, j :: IsNewestTwo(h, addr, i, j) ==> i == top[0] && j == top[1] by {
        forall i, j | IsNewestTwo(h, addr, i, j)
          ensures i == top[0] && j == top[1]
        {
          NewestTwoUnique(h, addr, i, j, top[0], top[1]);
        }
      }
      Classify(h[top[0]].priceUsd, h[top[1]].priceUsd, cfg)
  }

  /** Appending observations of other addresses (or with a NULL address) leaves the analysis
      of `addr` as it was. */
  lemma AnalyzeIgnoresOthers(s: Store, t: Store, addr: string, cfg: Config)
    requires s.history <= t.history
    requires forall k :: |s.history| <= k < |t.history| ==> t.history[k].pairAddress != Some(addr)
    ensures AnalyzePriceChange(t, addr, cfg) == AnalyzePriceChange(s, addr, cfg)
  {
    var h, h' := s.history, t.history;
    if TwoObservations(h', addr) {
      var i, j :| 0 <= i < j < |h'| && h'[i].pairAddress == Some(addr) && h'[j].pairAddress == Some(addr);
      assert TwoObservations(h, addr);
    }
    if TwoObservations(h, addr) {
      var top := LatestTwo(h, addr);
      assert IsNewestTwo(h, addr, top[0], top[1]);
      assert IsNewestTwo(h', addr, top[0], top[1]);
    }
  }
}

=== FILE: common.dfy ===
/** Small value types shared by every module of the model. */
module Common {

  /** An optional value: a SQL NULL, an absent result row, no event. */
  datatype Option<+T> = None | Some(value: T)

  /** The outcome of a store write that can be refused. */
  datatype Result<+T, +E> = Success(value: T) | Failure(error: E)

  /** One field looked up in a decoded market-API record.
      `Absent` is a missing key (a `KeyError` in the bot), `Malformed` a key whose
      value has the wrong JSON type or does not parse as a number, and `Present`
      a usable value. */
  datatype Field<+T> = Absent | Malformed | Present(value: T)

  function Min(a: nat, b: nat): nat
  {
    if a <= b then a else b
  }
}

=== FILE: cycle.dfy ===
/** One pass of the bot's poll loop: ingest new pairs, then re-price and classify every
    tracked pair. Fetched data comes in as parameters; `now` is the clock for every write. */
module Cycle {
  import opened Common
  import opened Pairs
  import opened Filter
  import opened Store
  import opened Persistence
  import opened Classifier

  /** Seconds the loop waits after a cycle that raised. */
  const BackoffSeconds: nat := 60

  /** `fetch_new_pairs` after a successful response: the listed pairs the filter admits, in order. */
  function FilterPairs(pairs: seq<Pair>, cfg: Config): (r: seq<Pair>)
    ensures forall p :: p in r <==> p in pairs && ApplyFilters(p, cfg)
    ensures |r| <= |pairs|
  {
    if |pairs| == 0 then []
    else
      var rest := FilterPairs(pairs[1..], cfg);
      assert forall p :: p in pairs <==> p == pairs[0] || p in pairs[1..];
      if ApplyFilters(pairs[0], cfg) then [pairs[0]] + rest else rest
  }

  /** The filter keeps the listing order and duplicates: filtering a concatenation filters
      each part, and a single pair is kept exactly when it is admitted. */
  lemma {:induction false} FilterPairsKeepsOrder(a: seq<Pair>, b: seq<Pair>, p: Pair, cfg: Config)
    ensures FilterPairs(a + b, cfg) == FilterPairs(a, cfg) + FilterPairs(b, cfg)
    ensures FilterPairs([p], cfg) == if ApplyFilters(p, cfg) then [p] else []
  {
    if |a| == 0 {
      assert a + b == b;
    } else {
      assert (a + b)[0] == a[0] && (a + b)[1..] == a[1..] + b;
      FilterPairsKeepsOrder(a[1..], b, p, cfg);
    }
  }

  /** The analysis of one tracked address: save the snapshot's price (when a snapshot
      was fetched), classify the two newest observations, and record any event. */
  function TrackStep(s: Store, addr: string, snapshot: Option<Pair>, cfg: Config, now: nat): (r: Store)
    ensures Valid(s) ==> Valid(r)
    ensures r.tokens == s.tokens
    ensures s.history <= r.history && |r.history| <= |s.history| + 1
    ensures s.events <= r.events && |r.events| <= |s.events| + 1
    ensures |r.history| > |s.history| <==>
              snapshot.Some? && addr in Addresses(s.tokens) && Observation(Some(addr), snapshot.value, now).Some?
    ensures |r.history| > |s.history| ==> Some(r.history[|s.history|]) == Observation(Some(addr), snapshot.value, now)
    ensures |r.events| > |s.events| <==>
              snapshot.Some? && addr in Addresses(s.tokens) && AnalyzePriceChange(r, addr, cfg).Some?
    ensures |r.events| > |s.events| ==>
              var d := AnalyzePriceChange(r, addr, cfg).value;
              r.events[|s.events|] == EventRow(addr, d.kind, d.priceChange, now)
  {
    match snapshot
    case None => s
    case Some(p) =>
      var saved := SavePriceHistory(s, Some(addr), p, now);
      match AnalyzePriceChange(saved, addr, cfg)
      case None => saved
      case Some(d) => RecordEvent(saved, addr, d.kind, d.priceChange, now)
  }

  /** A pair first seen at price 100 whose snapshot shows 250 is recorded as a PUMP of 150 percent. */
  lemma PumpScenario()
    ensures
      var a := "0xpair";
      var s := Store([Token(a, "ethereum", "PEPE", "WETH", Some(""), None, 1)],
                     [PriceRow(Some(a), 100.0, 6000.0, 2000.0, 1)], []);
      var snap := Pair(Present(a), Present("ethereum"), Present("PEPE"), Present("WETH"),
                       Absent, Absent, Present(250.0), Present(2000.0), Present(6000.0));
      TrackStep(s, a, Some(snap), DefaultConfig, 2).events == [EventRow(a, Pump, 150.0, 2)]
  {
    var a := "0xpair";
    var t := Token(a, "ethereum", "PEPE", "WETH", Some(""), None, 1);
    var s := Store([t], [PriceRow(Some(a), 100.0, 6000.0, 2000.0, 1)], []);
    var snap := Pair(Present(a), Present("ethereum"), Present("PEPE"), Present("WETH"),
                     Absent, Absent, Present(250.0), Present(2000.0), Present(6000.0));
    assert t in s.tokens;
    var saved := SavePriceHistory(s, Some(a), snap, 2);
    assert saved.history == [PriceRow(Some(a), 100.0, 6000.0, 2000.0, 1), PriceRow(Some(a), 250.0, 6000.0, 2000.0, 2)];
    assert IsNewestTwo(saved.history, a, 1, 0);
    ClassifyExamples();
    assert AnalyzePriceChange(saved, a, DefaultConfig) == Some(Detection(Pump, 150.0));
  }

  /** Row `i` is the newest observation of `addr`. */
  predicate IsNewest(h: seq<PriceRow>, addr: string, i: int)
  {
    && 0 <= i < |h| && h[i].pairAddress == Some(addr)
    && forall x :: 0 <= x < |h| && h[x].pairAddress == Some(addr) && x != i ==> NewerRow(h, i, x)
  }

  /** With a clock that does not go back, a fetched snapshot whose price is saved is compared
      with the newest price stored before it. */
  lemma SnapshotAgainstLatest(s: Store, addr: string, p: Pair, cfg: Config, now: nat, i: int)
    requires addr in Addresses(s.tokens)
    requires p.priceUsd.Present? && p.volume24h.Present? && p.liquidityUsd.Present?
    requires forall k :: 0 <= k < |s.history| ==> s.history[k].timestamp <= now
    requires IsNewest(s.history, addr, i)
    ensures AnalyzePriceChange(SavePriceHistory(s, Some(addr), p, now), addr, cfg)
            == Classify(p.priceUsd.value, s.history[i].priceUsd, cfg)
  {
    var h := s.history;
    var h' := SavePriceHistory(s, Some(addr), p, now).history;
    var n := |h|;
    assert h' == h + [PriceRow(Some(addr), p.priceUsd.value, p.volume24h.value, p.liquidityUsd.value, now)];
    assert NewerRow(h', n, i);
    forall x | 0 <= x < |h'| && h'[x].pairAddress == Some(addr) && x != n && x != i
      ensures NewerRow(h', i, x)
    {
      assert NewerRow(h, i, x);
    }
    assert IsNewestTwo(h', addr, n, i);
  }


  /** A snapshot whose numbers do not parse saves nothing, so the step classifies the same
      two observations as the step before it did and records the same event again. */
  lemma UnparsedSnapshotRepeats(s: Store, addr: string, p: Pair, cfg: Config, now: nat)
    requires addr in Addresses(s.tokens)
    requires Observation(Some(addr), p, now).None?
    ensures var r := TrackStep(s, addr, Some(p), cfg, now);
            && r.history == s.history
            && (|r.events| > |s.events| <==> AnalyzePriceChange(s, addr, cfg).Some?)
            && (|r.events| > |s.events| ==>
                  var d := AnalyzePriceChange(s, addr, cfg).value;
                  r.events[|s.events|] == EventRow(addr, d.kind, d.priceChange, now))
  {
  }

  /** A price that stays the same raises nothing when the thresholds straddle zero. */
  lemma SteadyPriceQuiet(x: real, cfg: Config)
    requires cfg.rugThreshold < 0.0 < cfg.pumpThreshold
    ensures Classify(x, x, cfg).None?
  {
  }

  /** The `pair_address` column in table order (`SELECT pair_address FROM tokens`). */
  function TrackedAddresses(tokens: seq<Token>): seq<string>
  {
    seq(|tokens|, i requires 0 <= i < |tokens| => tokens[i].pairAddress)
  }

  /** Some admitted pair came without a `pairAddress` key. */
  predicate MissingAddress(admitted: seq<Pair>)
  {
    exists p :: p in admitted && p.pairAddress.Absent?
  }

  /** The token row `t` was created from one of `pairs`. */
  predicate TokenFrom(t: Token, pairs: seq<Pair>)
  {
    exists p :: p in pairs && p.pairAddress == Present(t.pairAddress)
  }

  /** Every token row from position `from` on was created from one of `pairs`. */
  predicate CameFrom(tokens: seq<Token>, from: nat, pairs: seq<Pair>)
  {
    forall k :: from <= k < |tokens| ==> TokenFrom(tokens[k], pairs)
  }

  /** The admitted pairs the first loop gets through: those before the first one without a
      `pairAddress` key, which is all of them when none lacks it. */
  function Processed(admitted: seq<Pair>): (r: seq<Pair>)
    ensures r <= admitted
    ensures forall p :: p in r ==> !p.pairAddress.Absent?
    ensures |r| < |admitted| ==> admitted[|r|].pairAddress.Absent?
    ensures r == admitted <==> !MissingAddress(admitted)
  {
    if |admitted| == 0 then []
    else if admitted[0].pairAddress.Absent? then []
    else
      var rest := Processed(admitted[1..]);
      assert forall p :: p in admitted <==> p == admitted[0] || p in admitted[1..];
      [admitted[0]] + rest
  }

  /** The loop stopped at `i`, after pairs that all have the key, so it processed exactly
      the pairs before `i`. */
  lemma ProcessedPrefix(admitted: seq<Pair>, i: nat)
    requires i <= |admitted|
    requires forall p :: p in admitted[..i] ==> !p.pairAddress.Absent?
    requires i == |admitted| || admitted[i].pairAddress.Absent?
    ensures Processed(admitted) == admitted[..i]
  {
    var r := Processed(admitted);
    assert forall x :: 0 <= x < i ==> admitted[x] in admitted[..i];
    assert forall x :: 0 <= x < |r| ==> r[x] in r && r[x] == admitted[x];
  }

  /** `CameFrom` and `ObservedFrom` hold for any list that contains the pairs named. */
  lemma FromMore(tokens: seq<Token>, h: seq<PriceRow>, tokensFrom: nat, historyFrom: nat, a: seq<Pair>, b: seq<Pair>, now: nat)
    requires forall p :: p in a ==> p in b
    ensures CameFrom(tokens, tokensFrom, a) ==> CameFrom(tokens, tokensFrom, b)
    ensures ObservedFrom(h, historyFrom, a, now) ==> ObservedFrom(h, historyFrom, b, now)
  {
    forall t | TokenFrom(t, a) ensures TokenFrom(t, b) {
      var p :| p in a && p.pairAddress == Present(t.pairAddress);
      assert p in b;
    }
    forall row | RowFrom(row, a, now) ensures RowFrom(row, b, now) {
      var p :| p in a && Observation(AddressOf(p), p, now) == Some(row);
      assert p in b;
    }
  }

  /** The address the first loop hands to `save_price_history`: `pair['pairAddress']`, which
      is NULL for a JSON null. */
  function AddressOf(p: Pair): Option<string>
  {
    if p.pairAddress.Present? then Some(p.pairAddress.value) else None
  }

  /** `row` is one of the rows of `h` past the first `from`. */
  predicate Added(h: seq<PriceRow>, from: nat, row: PriceRow)
  {
    exists k :: from <= k < |h| && h[k] == row
  }

  /** The price row `row` is the observation of one of `pairs`. */
  predicate RowFrom(row: PriceRow, pairs: seq<Pair>, now: nat)
  {
    exists p :: p in pairs && Observation(AddressOf(p), p, now) == Some(row)
  }

  /** Every row of `h` from position `from` on is the observation of one of `pairs`. */
  predicate ObservedFrom(h: seq<PriceRow>, from: nat, pairs: seq<Pair>, now: nat)
  {
    forall k :: from <= k < |h| ==> RowFrom(h[k], pairs, now)
  }

  /** `rows` are observations of some of `pairs`, at most one per pair and in the pairs'
      order: the rows the first loop can write for those pairs. */
  predicate ObservedInOrder(rows: seq<PriceRow>, pairs: seq<Pair>, now: nat)
    decreases |pairs|
  {
    if |rows| == 0 then true
    else if |pairs| == 0 then false
    else
      var p := pairs[|pairs| - 1];
      || (&& Observation(AddressOf(p), p, now) == Some(rows[|rows| - 1])
          && ObservedInOrder(rows[..|rows| - 1], pairs[..|pairs| - 1], now))
      || ObservedInOrder(rows, pairs[..|pairs| - 1], now)
  }

  /** A pair whose price save writes nothing keeps the rows in order. */
  lemma InOrderSkip(rows: seq<PriceRow>, pairs: seq<Pair>, p: Pair, now: nat)
    requires ObservedInOrder(rows, pairs, now)
    ensures ObservedInOrder(rows, pairs + [p], now)
  {
    assert (pairs + [p])[..|pairs|] == pairs;
  }

  /** A pair whose price save commits adds its observation after the rows so far. */
  lemma InOrderTake(rows: seq<PriceRow>, pairs: seq<Pair>, p: Pair, now: nat)
    requires ObservedInOrder(rows, pairs, now)
    requires Observation(AddressOf(p), p, now).Some?
    ensures ObservedInOrder(rows + [Observation(AddressOf(p), p, now).value], pairs + [p], now)
  {
    var row := Observation(AddressOf(p), p, now).value;
    assert (pairs + [p])[..|pairs|] == pairs;
    assert (rows + [row])[..|rows|] == rows;
  }

  /** Rows in order are observations of the pairs, and there are no more of them than pairs. */
  lemma {:induction false} InOrderObserved(rows: seq<PriceRow>, pairs: seq<Pair>, now: nat)
    requires ObservedInOrder(rows, pairs, now)
    ensures |rows| <= |pairs|
    ensures forall k :: 0 <= k < |rows| ==> RowFrom(rows[k], pairs, now)
  {
    if |rows| > 0 {
      var init := pairs[..|pairs| - 1];
      var p := pairs[|pairs| - 1];
      assert forall q :: q in init ==> q in pairs;
      if Observation(AddressOf(p), p, now) == Some(rows[|rows| - 1]) && ObservedInOrder(rows[..|rows| - 1], init, now) {
        var front := rows[..|rows| - 1];
        InOrderObserved(front, init, now);
        forall k | 0 <= k < |rows| ensures RowFrom(rows[k], pairs, now) {
          if k < |front| {
            assert rows[k] == front[k];
            var q :| q in init && Observation(AddressOf(q), q, now) == Some(front[k]);
          } else {
            assert p in pairs;
          }
        }
      } else {
        InOrderObserved(rows, init, now);
        forall k | 0 <= k < |rows| ensures RowFrom(rows[k], pairs, now) {
          var q :| q in init && Observation(AddressOf(q), q, now) == Some(rows[k]);
        }
      }
    }
  }

  /** The first loop's price save for `p` commits, whatever the other pairs do: its numbers
      parse, and its address is NULL, was tracked before the cycle, or gets its token from `p`. */
  predicate PriceSaves(s: Store, p: Pair, now: nat)
  {
    && Observation(AddressOf(p), p, now).Some?
    && (|| p.pairAddress.Malformed?
        || TokenRow(p, now).Some?
        || (p.pairAddress.Present? && p.pairAddress.value in Addresses(s.tokens)))
  }

  /** The first loop: save each admitted pair's token and price. Reading `pairAddress` for
      the price save raises when the key is missing, which abandons the rest of the cycle. A
      null address makes the token insert fail on the primary key, but its price row is
      stored with a NULL address, which no foreign key refuses. */
  method IngestNewPairs(s: Store, admitted: seq<Pair>, now: nat) returns (r: Store, aborted: bool)
    ensures Valid(s) ==> Valid(r)
    ensures aborted <==> MissingAddress(admitted)
    ensures s.tokens <= r.tokens && s.history <= r.history && r.events == s.events
    ensures CameFrom(r.tokens, |s.tokens|, Processed(admitted))
    ensures ObservedFrom(r.history, |s.history|, Processed(admitted), now)
    ensures ObservedInOrder(r.history[|s.history|..], Processed(admitted), now)
    ensures |r.history| <= |s.history| + |Processed(admitted)|
    ensures forall p :: p in Processed(admitted) && TokenRow(p, now).Some? ==> p.pairAddress.value in Addresses(r.tokens)
    ensures forall p :: p in Processed(admitted) && PriceSaves(s, p, now) ==>
              Added(r.history, |s.history|, Observation(AddressOf(p), p, now).value)
  {
    r := s;
    aborted := false;
    var i := 0;
    assert admitted[..0] == [];
    while i < |admitted|
      invariant 0 <= i <= |admitted|
      invariant Ingested(s, r, admitted[..i], now)
    {
      var p := admitted[i];
      var before := r;
      r := SaveToken(r, p, now);
      if p.pairAddress.Absent? {
        ProcessedPrefix(admitted, i);
        InOrderObserved(r.history[|s.history|..], admitted[..i], now);
        aborted := true;
        return;
      }
      r := SavePriceHistory(r, AddressOf(p), p, now);
      IngestStep(s, before, admitted, i, now);
      i := i + 1;
    }
    ProcessedPrefix(admitted, i);
    InOrderObserved(r.history[|s.history|..], admitted[..i], now);
  }

  /** What the first loop has done for the pairs `done`, all of which have a `pairAddress`. */
  predicate Ingested(s: Store, r: Store, done: seq<Pair>, now: nat)
  {
    && (Valid(s) ==> Valid(r))
    && s.tokens <= r.tokens && s.history <= r.history && r.events == s.events
    && CameFrom(r.tokens, |s.tokens|, done)
    && ObservedFrom(r.history, |s.history|, done, now)
    && ObservedInOrder(r.history[|s.history|..], done, now)
    && (forall p :: p in done ==> !p.pairAddress.Absent?)
    && (forall p :: p in done && TokenRow(p, now).Some? ==> p.pairAddress.value in Addresses(r.tokens))
    && (forall p :: p in done && PriceSaves(s, p, now) ==>
          Added(r.history, |s.history|, Observation(AddressOf(p), p, now).value))
  }

  /** One iteration of the first loop for a pair with a `pairAddress`: its token save and then
      its price save. */
  lemma IngestStep(s: Store, before: Store, admitted: seq<Pair>, i: nat, now: nat)
    requires i < |admitted| && !admitted[i].pairAddress.Absent?
    requires Ingested(s, before, admitted[..i], now)
    ensures Ingested(s, SavePriceHistory(SaveToken(before, admitted[i], now), AddressOf(admitted[i]), admitted[i], now), admitted[..i + 1], now)
  {
    var p := admitted[i];
    var mid := SaveToken(before, p, now);
    var r := SavePriceHistory(mid, AddressOf(p), p, now);
    assert mid.tokens == before.tokens || mid.tokens == before.tokens + [TokenRow(p, now).value];
    AddressesGrow(before.tokens, mid.tokens);
    IngestTokenStep(s, before, mid, admitted, i, now);
    IngestPriceStep(s, before, mid, r, admitted, i, now);
    IngestOrderStep(|s.history|, mid, r, admitted, i, now);
    assert admitted[..i + 1] == admitted[..i] + [p];
  }

  /** One token save of the first loop keeps every new token traceable to a pair so far. */
  lemma IngestTokenStep(s: Store, before: Store, mid: Store, admitted: seq<Pair>, i: nat, now: nat)
    requires i < |admitted| && s.tokens <= before.tokens
    requires mid == SaveToken(before, admitted[i], now)
    requires CameFrom(before.tokens, |s.tokens|, admitted[..i])
    ensures CameFrom(mid.tokens, |s.tokens|, admitted[..i + 1])
  {
    assert admitted[..i + 1] == admitted[..i] + [admitted[i]];
    FromMore(before.tokens, [], |s.tokens|, 0, admitted[..i], admitted[..i + 1], now);
    if mid != before {
      assert mid.tokens[|before.tokens|].pairAddress == admitted[i].pairAddress.value;
    }
  }

  /** One price save of the first loop keeps the loop's facts about rows and earlier pairs. */
  lemma IngestPriceStep(s: Store, before: Store, mid: Store, r: Store, admitted: seq<Pair>, i: nat, now: nat)
    requires i < |admitted| && !admitted[i].pairAddress.Absent?
    requires s.tokens <= before.tokens && s.history <= before.history
    requires mid == SaveToken(before, admitted[i], now)
    requires r == SavePriceHistory(mid, AddressOf(admitted[i]), admitted[i], now)
    requires ObservedFrom(before.history, |s.history|, admitted[..i], now)
    requires forall p :: p in admitted[..i] && PriceSaves(s, p, now) ==>
               Added(before.history, |s.history|, Observation(AddressOf(p), p, now).value)
    ensures ObservedFrom(r.history, |s.history|, admitted[..i + 1], now)
    ensures forall p :: p in admitted[..i + 1] && PriceSaves(s, p, now) ==>
              Added(r.history, |s.history|, Observation(AddressOf(p), p, now).value)
  {
    var p := admitted[i];
    AddressesGrow(s.tokens, before.tokens);
    assert before.history <= r.history;
    assert admitted[..i + 1] == admitted[..i] + [p];
    FromMore([], before.history, 0, |s.history|, admitted[..i], admitted[..i + 1], now);
    var n := |before.history|;
    if r != mid {
      assert r.history[n] == Observation(AddressOf(p), p, now).value;
    }
    forall q | q in admitted[..i + 1] && PriceSaves(s, q, now)
      ensures Added(r.history, |s.history|, Observation(AddressOf(q), q, now).value)
    {
      if q in admitted[..i] {
        var k :| |s.history| <= k < |before.history| && before.history[k] == Observation(AddressOf(q), q, now).value;
        assert r.history[k] == before.history[k];
      } else {
        assert admitted[..i + 1] == admitted[..i] + [p];
        assert q == p;
        assert r != mid;
        assert r.history[n] == Observation(AddressOf(p), p, now).value;
      }
    }
  }

  /** One price save of the first loop keeps the rows past `from` in the order of the pairs. */
  lemma IngestOrderStep(from: nat, mid: Store, r: Store, admitted: seq<Pair>, i: nat, now: nat)
    requires i < |admitted| && from <= |mid.history|
    requires r == SavePriceHistory(mid, AddressOf(admitted[i]), admitted[i], now)
    requires ObservedInOrder(mid.history[from..], admitted[..i], now)
    ensures ObservedInOrder(r.history[from..], admitted[..i + 1], now)
  {
    var p := admitted[i];
    assert admitted[..i + 1] == admitted[..i] + [p];
    if r != mid {
      assert r.history[from..] == mid.history[from..] + [Observation(AddressOf(p), p, now).value];
      InOrderTake(mid.history[from..], admitted[..i], p, now);
    } else {
      InOrderSkip(mid.history[from..], admitted[..i], p, now);
    }
  }

  /** The snapshot fetched for `addr`, if any. */
  function SnapshotOf(snapshots: map<string, Pair>, addr: string): Option<Pair>
  {
    if addr in snapshots then Some(snapshots[addr]) else None
  }

  /** Every event of `r` past the first `from` is stamped `now` and belongs to a done address
      that had a snapshot. */
  predicate EventsFrom(r: Store, from: nat, snapshots: map<string, Pair>, now: nat, done: seq<string>)
  {
    forall k :: from <= k < |r.events| ==>
      r.events[k].pairAddress in snapshots && r.events[k].pairAddress in done && r.events[k].timestamp == now
  }

  /** Every price row of `r` past the first `from` is the observation of a done address's snapshot. */
  predicate HistoryFrom(r: Store, from: nat, snapshots: map<string, Pair>, now: nat, done: seq<string>)
  {
    forall k :: from <= k < |r.history| ==>
      && r.history[k].pairAddress.Some?
      && r.history[k].pairAddress.value in snapshots && r.history[k].pairAddress.value in done
      && Observation(r.history[k].pairAddress, snapshots[r.history[k].pairAddress.value], now) == Some(r.history[k])
  }

  /** The price row `row` is the observation of the snapshot fetched for its address. */
  predicate SnapshotRow(row: PriceRow, snapshots: map<string, Pair>, now: nat)
  {
    && row.pairAddress.Some? && row.pairAddress.value in snapshots
    && Observation(row.pairAddress, snapshots[row.pairAddress.value], now) == Some(row)
  }

  /** A price row one pass may write: the observation of a processed admitted pair, or that of
      the snapshot fetched for its address. */
  predicate CycleRow(row: PriceRow, processed: seq<Pair>, snapshots: map<string, Pair>, now: nat)
  {
    RowFrom(row, processed, now) || SnapshotRow(row, snapshots, now)
  }

  /** `r` is `s` after the analysis steps for the addresses `done`: tokens untouched, rows only
      appended, at most one event per step, and every new row belongs to a done address that
      had a snapshot. */
  predicate GrownBy(s: Store, r: Store, snapshots: map<string, Pair>, now: nat, done: seq<string>)
  {
    && r.tokens == s.tokens && s.history <= r.history && s.events <= r.events
    && |r.events| <= |s.events| + |done|
    && EventsFrom(r, |s.events|, snapshots, now, done)
    && HistoryFrom(r, |s.history|, snapshots, now, done)
  }

  lemma TrackStepGrows(s: Store, r: Store, addr: string, snapshots: map<string, Pair>, cfg: Config, now: nat, done: seq<string>)
    requires GrownBy(s, r, snapshots, now, done)
    ensures GrownBy(s, TrackStep(r, addr, SnapshotOf(snapshots, addr), cfg, now), snapshots, now, done + [addr])
  {
    var next := TrackStep(r, addr, SnapshotOf(snapshots, addr), cfg, now);
    var done' := done + [addr];
    forall k | |s.events| <= k < |next.events|
      ensures next.events[k].pairAddress in snapshots && next.events[k].pairAddress in done' && next.events[k].timestamp == now
    {
      if k < |r.events| {
        assert next.events[k] == r.events[k];
      } else {
        assert next.events[k].pairAddress == addr;
      }
    }
    forall k | |s.history| <= k < |next.history|
      ensures && next.history[k].pairAddress.Some?
              && next.history[k].pairAddress.value in snapshots && next.history[k].pairAddress.value in done'
              && Observation(next.history[k].pairAddress, snapshots[next.history[k].pairAddress.value], now) == Some(next.history[k])
    {
      if k < |r.history| {
        assert next.history[k] == r.history[k];
      } else {
        assert k == |r.history|;
        assert Some(next.history[k]) == Observation(Some(addr), snapshots[addr], now);
      }
    }
  }

  /** Among the price rows of `r` from position `from` on, `a` has at most one, and it is
      there exactly when a snapshot was fetched for `a` and parses: its observation. */
  predicate PriceHandled(from: nat, r: Store, a: string, snapshots: map<string, Pair>, now: nat)
  {
    && (a in snapshots && Observation(Some(a), snapshots[a], now).Some? ==>
          Added(r.history, from, Observation(Some(a), snapshots[a], now).value))
    && (forall k1, k2 :: from <= k1 < k2 < |r.history| && r.history[k1].pairAddress == Some(a) ==>
          r.history[k2].pairAddress != Some(a))
  }

  /** Among the events of `r` from position `from` on, one for `a` exists exactly when a
      snapshot was fetched and the newest two observations classify; every such event carries
      that classification; and there is at most one. */
  predicate EventHandled(from: nat, r: Store, a: string, snapshots: map<string, Pair>, cfg: Config, now: nat)
  {
    && ((exists k :: from <= k < |r.events| && r.events[k].pairAddress == a) <==>
          a in snapshots && AnalyzePriceChange(r, a, cfg).Some?)
    && (forall k :: from <= k < |r.events| && r.events[k].pairAddress == a ==>
          AnalyzePriceChange(r, a, cfg) == Some(Detection(r.events[k].kind, r.events[k].priceChange)))
    && (forall k1, k2 :: from <= k1 < k2 < |r.events| && r.events[k1].pairAddress == a ==>
          r.events[k2].pairAddress != a)
  }

  /** What the analysis loop does for the tracked address `a`, judged on the price rows and
      events of `r` from the given positions on. */
  predicate Handled(historyFrom: nat, eventsFrom: nat, r: Store, a: string, snapshots: map<string, Pair>, cfg: Config, now: nat)
  {
    PriceHandled(historyFrom, r, a, snapshots, now) && EventHandled(eventsFrom, r, a, snapshots, cfg, now)
  }

  /** Rows appended for other addresses leave what was done for `b` in place. */
  lemma HandledKept(s: Store, r: Store, next: Store, b: string, snapshots: map<string, Pair>, cfg: Config, now: nat)
    requires s.history <= r.history <= next.history && s.events <= r.events <= next.events
    requires forall k :: |r.history| <= k < |next.history| ==> next.history[k].pairAddress != Some(b)
    requires forall k :: |r.events| <= k < |next.events| ==> next.events[k].pairAddress != b
    requires Handled(|s.history|, |s.events|, r, b, snapshots, cfg, now)
    ensures Handled(|s.history|, |s.events|, next, b, snapshots, cfg, now)
  {
    PriceHandledKept(s, r, next, b, snapshots, now);
    EventHandledKept(s, r, next, b, snapshots, cfg, now);
  }

  lemma PriceHandledKept(s: Store, r: Store, next: Store, b: string, snapshots: map<string, Pair>, now: nat)
    requires s.history <= r.history <= next.history
    requires forall k :: |r.history| <= k < |next.history| ==> next.history[k].pairAddress != Some(b)
    requires PriceHandled(|s.history|, r, b, snapshots, now)
    ensures PriceHandled(|s.history|, next, b, snapshots, now)
  {
    if b in snapshots && Observation(Some(b), snapshots[b], now).Some? {
      var k :| |s.history| <= k < |r.history| && r.history[k] == Observation(Some(b), snapshots[b], now).value;
      assert next.history[k] == r.history[k];
    }
  }

  lemma EventHandledKept(s: Store, r: Store, next: Store, b: string, snapshots: map<string, Pair>, cfg: Config, now: nat)
    requires r.history <= next.history && s.events <= r.events <= next.events
    requires forall k :: |r.history| <= k < |next.history| ==> next.history[k].pairAddress != Some(b)
    requires forall k :: |r.events| <= k < |next.events| ==> next.events[k].pairAddress != b
    requires EventHandled(|s.events|, r, b, snapshots, cfg, now)
    ensures EventHandled(|s.events|, next, b, snapshots, cfg, now)
  {
    AnalyzeIgnoresOthers(r, next, b, cfg);
    if exists k :: |s.events| <= k < |r.events| && r.events[k].pairAddress == b {
      var k :| |s.events| <= k < |r.events| && r.events[k].pairAddress == b;
      assert next.events[k] == r.events[k];
    }
  }

  /** The step for a tracked `a`, with no new row of `a` before it, saves the observation of
      its snapshot and nothing else for `a`. */
  lemma PriceHandledNew(s: Store, r: Store, a: string, snapshots: map<string, Pair>, cfg: Config, now: nat)
    requires s.history <= r.history && a in Addresses(r.tokens)
    requires forall k :: |s.history| <= k < |r.history| ==> r.history[k].pairAddress != Some(a)
    ensures PriceHandled(|s.history|, TrackStep(r, a, SnapshotOf(snapshots, a), cfg, now), a, snapshots, now)
  {
    var next := TrackStep(r, a, SnapshotOf(snapshots, a), cfg, now);
    if a in snapshots && Observation(Some(a), snapshots[a], now).Some? {
      assert next.history[|r.history|] == Observation(Some(a), snapshots[a], now).value;
    }
  }

  /** The step for a tracked `a`, with no new event of `a` before it, records the event
      its classification calls for. */
  lemma EventHandledNew(s: Store, r: Store, a: string, snapshots: map<string, Pair>, cfg: Config, now: nat)
    requires s.events <= r.events && a in Addresses(r.tokens)
    requires forall k :: |s.events| <= k < |r.events| ==> r.events[k].pairAddress != a
    ensures EventHandled(|s.events|, TrackStep(r, a, SnapshotOf(snapshots, a), cfg, now), a, snapshots, cfg, now)
  {
    var next := TrackStep(r, a, SnapshotOf(snapshots, a), cfg, now);
    if exists k :: |s.events| <= k < |next.events| && next.events[k].pairAddress == a {
      var k :| |s.events| <= k < |next.events| && next.events[k].pairAddress == a;
      assert k == |r.events|;
    }
    if a in snapshots && AnalyzePriceChange(next, a, cfg).Some? {
      assert next.events[|r.events|].pairAddress == a;
    }
  }

  /** Rows a step adds all belong to its own address. */
  lemma TrackStepOwnRows(r: Store, a: string, snapshots: map<string, Pair>, cfg: Config, now: nat)
    ensures var next := TrackStep(r, a, SnapshotOf(snapshots, a), cfg, now);
            && (forall k :: |r.history| <= k < |next.history| ==> next.history[k].pairAddress == Some(a))
            && (forall k :: |r.events| <= k < |next.events| ==> next.events[k].pairAddress == a)
  {
    var next := TrackStep(r, a, SnapshotOf(snapshots, a), cfg, now);
    if |next.history| > |r.history| {
      assert next.history[|r.history|].pairAddress == Some(a);
    }
  }

  /** Under the primary key an address occurs once in the `pair_address` column. */
  lemma FirstOccurrence(tokens: seq<Token>, i: nat)
    requires KeysUnique(tokens) && i < |tokens|
    ensures TrackedAddresses(tokens)[i] !in TrackedAddresses(tokens)[..i]
  {
    var addrs := TrackedAddresses(tokens);
    forall x | 0 <= x < i ensures addrs[x] != addrs[i] {
      assert tokens[x].pairAddress != tokens[i].pairAddress;
    }
  }

  /** One analysis step keeps `Handled` for the done addresses and establishes it for the next. */
  lemma AnalyzeStep(s: Store, r: Store, addrs: seq<string>, i: nat, snapshots: map<string, Pair>, cfg: Config, now: nat)
    requires KeysUnique(s.tokens) && addrs == TrackedAddresses(s.tokens) && i < |addrs|
    requires GrownBy(s, r, snapshots, now, addrs[..i])
    requires forall b :: b in addrs[..i] ==> Handled(|s.history|, |s.events|, r, b, snapshots, cfg, now)
    ensures var next := TrackStep(r, addrs[i], SnapshotOf(snapshots, addrs[i]), cfg, now);
            forall b :: b in addrs[..i + 1] ==> Handled(|s.history|, |s.events|, next, b, snapshots, cfg, now)
  {
    var a := addrs[i];
    var next := TrackStep(r, a, SnapshotOf(snapshots, a), cfg, now);
    FirstOccurrence(s.tokens, i);
    assert s.tokens[i] in r.tokens;
    PriceHandledNew(s, r, a, snapshots, cfg, now);
    EventHandledNew(s, r, a, snapshots, cfg, now);
    TrackStepOwnRows(r, a, snapshots, cfg, now);
    forall b | b in addrs[..i] ensures Handled(|s.history|, |s.events|, next, b, snapshots, cfg, now) {
      HandledKept(s, r, next, b, snapshots, cfg, now);
    }
    assert addrs[..i + 1] == addrs[..i] + [a];
  }

  /** The second loop: for each tracked address in table order, take its snapshot (when one
      was fetched) and run `TrackStep`. */
  method AnalyzeTracked(s: Store, snapshots: map<string, Pair>, cfg: Config, now: nat) returns (r: Store)
    ensures Valid(s) ==> Valid(r)
    ensures r.tokens == s.tokens && s.history <= r.history && s.events <= r.events
    ensures |r.events| <= |s.events| + |s.tokens|
    ensures forall k :: |s.events| <= k < |r.events| ==> r.events[k].pairAddress in snapshots && r.events[k].timestamp == now
    ensures forall k :: |s.history| <= k < |r.history| ==> SnapshotRow(r.history[k], snapshots, now)
    ensures Valid(s) ==> forall a :: a in Addresses(s.tokens) ==> Handled(|s.history|, |s.events|, r, a, snapshots, cfg, now)
  {
    var addrs := TrackedAddresses(s.tokens);
    r := s;
    var i := 0;
    while i < |addrs|
      invariant 0 <= i <= |addrs|
      invariant Valid(s) ==> Valid(r)
      invariant GrownBy(s, r, snapshots, now, addrs[..i])
      invariant Valid(s) ==> forall b :: b in addrs[..i] ==> Handled(|s.history|, |s.events|, r, b, snapshots, cfg, now)
    {
      var addr := addrs[i];
      TrackStepGrows(s, r, addr, snapshots, cfg, now, addrs[..i]);
      if Valid(s) {
        AnalyzeStep(s, r, addrs, i, snapshots, cfg, now);
      }
      assert addrs[..i + 1] == addrs[..i] + [addr];
      r := TrackStep(r, addr, SnapshotOf(snapshots, addr), cfg, now);
      i := i + 1;
    }
    assert addrs[..i] == addrs;
    forall a | a in Addresses(s.tokens) ensures a in addrs {
      var t :| t in s.tokens && t.pairAddress == a;
      var x :| 0 <= x < |s.tokens| && s.tokens[x] == t;
      assert addrs[x] == a;
    }
  }

  /** One pass of the poll loop, returning the store, the seconds to sleep before the next, and
      `mark`, the number of price rows when the analysis loop starts (the end of the first
      loop's rows). */
  method Cycle(s: Store, response: seq<Pair>, snapshots: map<string, Pair>, cfg: Config, now: nat)
    returns (r: Store, delay: nat, mark: nat)
    ensures Valid(s) ==> Valid(r)
    ensures s.tokens <= r.tokens && s.history <= r.history && s.events <= r.events
    ensures |s.history| <= mark <= |r.history|
    ensures MissingAddress(FilterPairs(response, cfg)) ==> mark == |r.history|
    ensures ObservedInOrder(r.history[|s.history|..mark], Processed(FilterPairs(response, cfg)), now)
    ensures forall k :: mark <= k < |r.history| ==> SnapshotRow(r.history[k], snapshots, now)
    ensures CameFrom(r.tokens, |s.tokens|, Processed(FilterPairs(response, cfg)))
    ensures forall k :: |s.tokens| <= k < |r.tokens| ==> ListedAndAdmitted(response, cfg, r.tokens[k].pairAddress)
    ensures forall k :: |s.history| <= k < |r.history| ==>
              CycleRow(r.history[k], Processed(FilterPairs(response, cfg)), snapshots, now)
    ensures MissingAddress(FilterPairs(response, cfg)) ==> delay == BackoffSeconds && r.events == s.events
    ensures !MissingAddress(FilterPairs(response, cfg)) ==> delay == cfg.scanInterval
    ensures forall p :: p in Processed(FilterPairs(response, cfg)) && TokenRow(p, now).Some? ==>
              p.pairAddress.value in Addresses(r.tokens)
    ensures forall p :: p in Processed(FilterPairs(response, cfg)) && PriceSaves(s, p, now) ==>
              Added(r.history, |s.history|, Observation(AddressOf(p), p, now).value)
    ensures Valid(s) && !MissingAddress(FilterPairs(response, cfg)) ==>
              forall a :: a in Addresses(r.tokens) ==> Handled(mark, |s.events|, r, a, snapshots, cfg, now)
    ensures forall k :: |s.events| <= k < |r.events| ==> r.events[k].pairAddress in snapshots && r.events[k].timestamp == now
  {
    var admitted := FilterPairs(response, cfg);
    var ingested, aborted := IngestNewPairs(s, admitted, now);
    mark := |ingested.history|;
    if aborted {
      AbortedPass(s, ingested, Processed(admitted), response, snapshots, cfg, now);
      return ingested, BackoffSeconds, mark;
    }
    r := AnalyzeTracked(ingested, snapshots, cfg, now);
    delay := cfg.scanInterval;
    CycleFacts(s, ingested, r, Processed(admitted), snapshots, cfg, now);
    TokensListed(s, r, Processed(admitted), response, cfg);
  }

  /** A pass that stops in the first loop keeps its promises with the store that loop left. */
  lemma AbortedPass(s: Store, r: Store, processed: seq<Pair>, response: seq<Pair>, snapshots: map<string, Pair>, cfg: Config, now: nat)
    requires s.tokens <= r.tokens && s.history <= r.history
    requires processed <= FilterPairs(response, cfg)
    requires CameFrom(r.tokens, |s.tokens|, processed)
    requires ObservedFrom(r.history, |s.history|, processed, now)
    requires ObservedInOrder(r.history[|s.history|..], processed, now)
    ensures ObservedInOrder(r.history[|s.history|..|r.history|], processed, now)
    ensures forall k :: |s.tokens| <= k < |r.tokens| ==> ListedAndAdmitted(response, cfg, r.tokens[k].pairAddress)
    ensures forall k :: |s.history| <= k < |r.history| ==> CycleRow(r.history[k], processed, snapshots, now)
  {
    assert r.history[|s.history|..|r.history|] == r.history[|s.history|..];
    TokensListed(s, r, processed, response, cfg);
  }

  /** Tokens traced to a prefix of the admitted pairs come from listed pairs the filter admits. */
  lemma TokensListed(s: Store, r: Store, processed: seq<Pair>, response: seq<Pair>, cfg: Config)
    requires processed <= FilterPairs(response, cfg)
    requires CameFrom(r.tokens, |s.tokens|, processed)
    ensures forall k :: |s.tokens| <= k < |r.tokens| ==> ListedAndAdmitted(response, cfg, r.tokens[k].pairAddress)
  {
    var admitted := FilterPairs(response, cfg);
    assert forall p :: p in processed ==> p in admitted by {
      forall p | p in processed ensures p in admitted {
        var i :| 0 <= i < |processed| && processed[i] == p;
        assert admitted[i] == p;
      }
    }
    FromMore(r.tokens, [], |s.tokens|, 0, processed, admitted, 0);
    CameFromListed(r.tokens, |s.tokens|, response, cfg);
  }

  /** Some pair of the listing that the filter admits has the address `a`. */
  predicate ListedAndAdmitted(response: seq<Pair>, cfg: Config, a: string)
  {
    exists p :: p in response && ApplyFilters(p, cfg) && p.pairAddress == Present(a)
  }

  lemma CameFromListed(tokens: seq<Token>, from: nat, response: seq<Pair>, cfg: Config)
    requires CameFrom(tokens, from, FilterPairs(response, cfg))
    ensures forall k :: from <= k < |tokens| ==> ListedAndAdmitted(response, cfg, tokens[k].pairAddress)
  {
    forall k | from <= k < |tokens|
      ensures ListedAndAdmitted(response, cfg, tokens[k].pairAddress)
    {
      var admitted := FilterPairs(response, cfg);
      assert TokenFrom(tokens[k], admitted);
      var p :| p in admitted && p.pairAddress == Present(tokens[k].pairAddress);
      assert p in response && ApplyFilters(p, cfg);
    }
  }

  /** The first loop's price rows survive the second loop, and every row of the pass is one
      it may write. */
  lemma CycleFacts(s: Store, ingested: Store, r: Store, admitted: seq<Pair>, snapshots: map<string, Pair>, cfg: Config, now: nat)
    requires s.history <= ingested.history && ingested.events == s.events
    requires ingested.tokens == r.tokens && ingested.history <= r.history && ingested.events <= r.events
    requires forall p :: p in admitted && PriceSaves(s, p, now) ==>
               Added(ingested.history, |s.history|, Observation(AddressOf(p), p, now).value)
    requires ObservedFrom(ingested.history, |s.history|, admitted, now)
    requires forall k :: |ingested.history| <= k < |r.history| ==> SnapshotRow(r.history[k], snapshots, now)
    ensures forall p :: p in admitted && PriceSaves(s, p, now) ==>
              Added(r.history, |s.history|, Observation(AddressOf(p), p, now).value)
    ensures forall k :: |s.history| <= k < |r.history| ==> CycleRow(r.history[k], admitted, snapshots, now)
    ensures r.history[|s.history|..|ingested.history|] == ingested.history[|s.history|..]
  {
    forall k | |s.history| <= k < |r.history| ensures CycleRow(r.history[k], admitted, snapshots, now) {
      if k < |ingested.history| {
        assert r.history[k] == ingested.history[k];
      }
    }
    forall p | p in admitted && PriceSaves(s, p, now)
      ensures Added(r.history, |s.history|, Observation(AddressOf(p), p, now).value)
    {
      var row := Observation(AddressOf(p), p, now).value;
      var k :| |s.history| <= k < |ingested.history| && ingested.history[k] == row;
      assert r.history[k] == row;
    }
  }

  /** The cycle as the bot's source has it: the analysis loop calls a snapshot fetcher the bot
      does not define, so the call raises at the first tracked address and the cycle ends in
      the backoff without any price saved or event recorded by that loop. */
  method CycleAsWritten(s: Store, response: seq<Pair>, cfg: Config, now: nat) returns (r: Store, delay: nat)
    ensures Valid(s) ==> Valid(r)
    ensures r.events == s.events
    ensures |r.tokens| > 0 ==> delay == BackoffSeconds
    ensures MissingAddress(FilterPairs(response, cfg)) ==> delay == BackoffSeconds
    ensures |r.tokens| == 0 && !MissingAddress(FilterPairs(response, cfg)) ==> delay == cfg.scanInterval
  {
    var admitted := FilterPairs(response, cfg);
    var ingested, aborted := IngestNewPairs(s, admitted, now);
    r := ingested;
    if aborted || |r.tokens| > 0 {
      delay := BackoffSeconds;
    } else {
      delay := cfg.scanInterval;
    }
  }
}

=== FILE: filter.dfy ===
/** The ingestion filter: which newly listed pairs the bot starts tracking. */
module Filter {
  import opened Common
  import opened Text
  import opened Pairs

  /** The exceptions the filter catches and turns into a rejection. */
  datatype FilterError = MissingField | NotANumber

  /** The filter's steps in the order the bot runs them. A `Failure` is an
      exception raised by a lookup, a `.lower()` or a `float()`. */
  function Evaluate(p: Pair, cfg: Config): Result<bool, FilterError>
  {
    if !p.chainId.Present? then Failure(MissingField)
    else if Lower(p.chainId.value) !in LowerAll(cfg.chains) then Success(false)
    else if p.baseSymbol.Absent? || p.quoteSymbol.Absent? then Failure(MissingField)
    else if p.creatorAddress.Malformed? then Failure(MissingField)
    else
      var creator := if p.creatorAddress.Present? then Lower(p.creatorAddress.value) else "";
      if SymbolListed(p.baseSymbol, cfg.blacklistedCoins)
         || SymbolListed(p.quoteSymbol, cfg.blacklistedCoins)
         || creator in cfg.blacklistedDevs
      then Success(false)
      else if !p.liquidityUsd.Present? || !p.volume24h.Present? then Failure(NotANumber)
      else if p.liquidityUsd.value < cfg.minLiquidity || p.volume24h.value < cfg.minVolume then Success(false)
      else Success(true)
  }

  /** A symbol is listed when it is text equal, case included, to a list entry;
      a non-text symbol equals no entry of a list of strings. */
  predicate SymbolListed(symbol: Field<string>, coins: seq<string>)
  {
    symbol.Present? && symbol.value in coins
  }

  /** The creator check: a missing creator counts as the empty address, a non-text one
      cannot be lower-cased, and a present one is compared lower-cased against the
      entries as they are written in the configuration. */
  predicate CreatorAllowed(creator: Field<string>, devs: seq<string>)
  {
    match creator
    case Absent => "" !in devs
    case Malformed => false
    case Present(a) => Lower(a) !in devs
  }

  /** What an admitted pair satisfies, stated condition by condition. */
  predicate Admissible(p: Pair, cfg: Config)
  {
    && p.chainId.Present?
    && (exists c :: c in cfg.chains && Lower(c) == Lower(p.chainId.value))
    && !p.baseSymbol.Absent? && !p.quoteSymbol.Absent?
    && !SymbolListed(p.baseSymbol, cfg.blacklistedCoins)
    && !SymbolListed(p.quoteSymbol, cfg.blacklistedCoins)
    && CreatorAllowed(p.creatorAddress, cfg.blacklistedDevs)
    && p.liquidityUsd.Present? && p.liquidityUsd.value >= cfg.minLiquidity
    && p.volume24h.Present? && p.volume24h.value >= cfg.minVolume
  }

  /** `apply_filters`: true when the pair is admitted; a caught exception is a rejection. */
  function ApplyFilters(p: Pair, cfg: Config): (r: bool)
    ensures r <==> Admissible(p, cfg)
    ensures p.chainId.Present? && (forall c :: c in cfg.chains ==> Lower(c) != Lower(p.chainId.value)) ==> !r
    ensures SymbolListed(p.baseSymbol, cfg.blacklistedCoins) ==> !r
    ensures SymbolListed(p.quoteSymbol, cfg.blacklistedCoins) ==> !r
    ensures p.creatorAddress.Present? && Lower(p.creatorAddress.value) in cfg.blacklistedDevs ==> !r
    ensures p.creatorAddress.Absent? && "" in cfg.blacklistedDevs ==> !r
    ensures r ==> p.liquidityUsd.Present? && p.liquidityUsd.value >= cfg.minLiquidity
    ensures r ==> p.volume24h.Present? && p.volume24h.value >= cfg.minVolume
    ensures (|| !p.chainId.Present? || p.baseSymbol.Absent? || p.quoteSymbol.Absent?
             || p.creatorAddress.Malformed? || !p.liquidityUsd.Present? || !p.volume24h.Present?) ==> !r
  {
    ChainListed(p, cfg);
    match Evaluate(p, cfg)
    case Success(admitted) => admitted
    case Failure(_) => false
  }

  lemma ChainListed(p: Pair, cfg: Config)
    ensures p.chainId.Present? ==>
              (Lower(p.chainId.value) in LowerAll(cfg.chains)
               <==> exists c :: c in cfg.chains && Lower(c) == Lower(p.chainId.value))
  {
    if p.chainId.Present? {
      InLowerAll(cfg.chains, Lower(p.chainId.value));
    }
  }

  /** The chain comparison ignores the case of the pair's chain id. */
  lemma ChainIdCaseIgnored(p: Pair, cfg: Config, chain: string)
    ensures ApplyFilters(p.(chainId := Present(chain)), cfg)
         == ApplyFilters(p.(chainId := Present(Lower(chain))), cfg)
  {
    LowerIdempotent(chain);
  }

  /** The chain comparison ignores the case of the configured chains. */
  lemma ConfiguredChainCaseIgnored(p: Pair, cfg: Config)
    ensures ApplyFilters(p, cfg) == ApplyFilters(p, cfg.(chains := LowerAll(cfg.chains)))
  {
    if p.chainId.Present? {
      var x := Lower(p.chainId.value);
      if exists c :: c in cfg.chains && Lower(c) == x {
        var c :| c in cfg.chains && Lower(c) == x;
        InLowerAll(cfg.chains, x);
        LowerIdempotent(c);
        assert Lower(Lower(c)) == x;
      }
      if exists c :: c in LowerAll(cfg.chains) && Lower(c) == x {
        var c :| c in LowerAll(cfg.chains) && Lower(c) == x;
        InLowerAll(cfg.chains, c);
        var d :| d in cfg.chains && Lower(d) == c;
        LowerIdempotent(d);
      }
    }
  }

  /** A creator blacklist entry holding an upper-case letter never rejects a pair:
      the pair's creator is lower-cased before the lookup, the entries are not. */
  lemma UpperCaseDevEntryInert(p: Pair, cfg: Config, d: string, k: nat)
    requires k < |d| && IsUpper(d[k])
    ensures ApplyFilters(p, cfg.(blacklistedDevs := cfg.blacklistedDevs + [d])) == ApplyFilters(p, cfg)
  {
    assert "" != d;
    if p.creatorAddress.Present? {
      NotALowering(p.creatorAddress.value, d, k);
    }
  }

  /** The symbol blacklist is case-sensitive: "pepe" does not block a pair whose base is "PEPE". */
  lemma SymbolCaseMatters()
    ensures ApplyFilters(
              Pair(Present("0xpair"), Present("Ethereum"), Present("PEPE"), Present("WETH"),
                   Absent, Absent, Present(1.0), Present(2000.0), Present(6000.0)),
              DefaultConfig.(blacklistedCoins := ["pepe"]))
  {
    var cfg := DefaultConfig.(blacklistedCoins := ["pepe"]);
    assert Lower("ethereum") == Lower("Ethereum");
    assert "ethereum" in cfg.chains;
    assert "PEPE" != "pepe";
  }
}

=== FILE: pairs.dfy ===
/** The records the bot reads: one market-API pair and the configuration. */
module Pairs {
  import opened Common

  /** A trading pair as returned by the market API, reduced to the fields the bot reads.
      `baseSymbol` is `baseToken.symbol`, `quoteSymbol` is `quoteToken.symbol`,
      `liquidityUsd` is `liquidity.usd` and `volume24h` is `volume.h24`; numeric fields
      are `Present` when `float(...)` succeeds on them. */
  datatype Pair = Pair(
    pairAddress: Field<string>,
    chainId: Field<string>,
    baseSymbol: Field<string>,
    quoteSymbol: Field<string>,
    creatorAddress: Field<string>,
    pairCreatedAt: Field<int>,
    priceUsd: Field<real>,
    liquidityUsd: Field<real>,
    volume24h: Field<real>)

  /** The thresholds and lists the bot loads once at start-up. */
  datatype Config = Config(
    pumpThreshold: real,
    rugThreshold: real,
    minLiquidity: real,
    minVolume: real,
    blacklistedCoins: seq<string>,
    blacklistedDevs: seq<string>,
    chains: seq<string>,
    scanInterval: nat)

  /** The configuration written when no configuration file exists. */
  const DefaultConfig := Config(
    pumpThreshold := 100.0,
    rugThreshold := -90.0,
    minLiquidity := 1000.0,
    minVolume := 5000.0,
    blacklistedCoins := [],
    blacklistedDevs := [],
    chains := ["ethereum", "bsc", "polygon"],
    scanInterval := 300)
}

=== FILE: persistence.dfy ===
/** The bot's own database operations: each write commits, or rolls back and leaves the
    store as it was. */
module Persistence {
  import opened Common
  import opened Pairs
  import opened Ranking
  import opened Store

  /** The `tokens` row `save_token` inserts, or `None` when reading a required field raises.
      The creator defaults to the empty address and is stored as given (not lower-cased);
      a non-text creator or non-integer creation time is stored as NULL. */
  function TokenRow(p: Pair, now: nat): (r: Option<Token>)
    ensures r.Some? <==> p.pairAddress.Present? && p.chainId.Present? && p.baseSymbol.Present? && p.quoteSymbol.Present?
    ensures r.Some? ==> r.value.pairAddress == p.pairAddress.value && r.value.chainId == p.chainId.value
    ensures r.Some? ==> r.value.baseSymbol == p.baseSymbol.value && r.value.quoteSymbol == p.quoteSymbol.value
    ensures r.Some? ==> r.value.firstSeen == now
    ensures r.Some? && p.creatorAddress.Absent? ==> r.value.creatorAddress == Some("")
    ensures r.Some? && p.creatorAddress.Present? ==> r.value.creatorAddress == Some(p.creatorAddress.value)
    ensures r.Some? && p.creatorAddress.Malformed? ==> r.value.creatorAddress.None?
    ensures r.Some? ==> r.value.createdAt == (if p.pairCreatedAt.Present? then Some(p.pairCreatedAt.value) else None)
  {
    if p.pairAddress.Present? && p.chainId.Present? && p.baseSymbol.Present? && p.quoteSymbol.Present? then
      var creator := match p.creatorAddress
        case Absent => Some("")
        case Malformed => None
        case Present(a) => Some(a);
      var created := if p.pairCreatedAt.Present? then Some(p.pairCreatedAt.value) else None;
      Some(Token(p.pairAddress.value, p.chainId.value, p.baseSymbol.value, p.quoteSymbol.value, creator, created, now))
    else None
  }

  /** `save_token`: insert-or-ignore; a failed insert is rolled back. */
  function SaveToken(s: Store, p: Pair, now: nat): (r: Store)
    ensures Valid(s) ==> Valid(r)
    ensures r.history == s.history && r.events == s.events
    ensures s.tokens <= r.tokens && |r.tokens| <= |s.tokens| + 1
    ensures TokenRow(p, now).None? ==> r == s
    ensures p.pairAddress.Present? && p.pairAddress.value in Addresses(s.tokens) ==> r == s
    ensures r != s ==> TokenRow(p, now).Some? && r.tokens == s.tokens + [TokenRow(p, now).value]
    ensures TokenRow(p, now).Some? ==> Addresses(r.tokens) == Addresses(s.tokens) + {p.pairAddress.value}
  {
    match TokenRow(p, now)
    case None => s
    case Some(t) => InsertToken(s, t)
  }

  /** Saving the same pair twice leaves the store as the first save did, with one row for its address. */
  lemma SaveTokenTwice(s: Store, p: Pair, now: nat, later: nat)
    requires Valid(s)
    requires TokenRow(p, now).Some?
    ensures SaveToken(SaveToken(s, p, now), p, later) == SaveToken(s, p, now)
    ensures CountKey(SaveToken(s, p, now).tokens, p.pairAddress.value) == 1
  {
    var once := SaveToken(s, p, now);
    KeyHasOneRow(once.tokens, p.pairAddress.value);
  }

  /** The row `save_price_history` inserts for `addr` (`None` for a NULL address), or `None`
      when one of its three `float()` conversions raises. */
  function Observation(addr: Option<string>, p: Pair, now: nat): Option<PriceRow>
  {
    if p.priceUsd.Present? && p.volume24h.Present? && p.liquidityUsd.Present? then
      Some(PriceRow(addr, p.priceUsd.value, p.volume24h.value, p.liquidityUsd.value, now))
    else None
  }

  /** `save_price_history`: appends one observation for `addr`; a missing number, or an
      address that has no token, rolls back. A NULL address is not checked against `tokens`. */
  function SavePriceHistory(s: Store, addr: Option<string>, p: Pair, now: nat): (r: Store)
    ensures Valid(s) ==> Valid(r)
    ensures r.tokens == s.tokens && r.events == s.events
    ensures r != s <==>
              && p.priceUsd.Present? && p.volume24h.Present? && p.liquidityUsd.Present?
              && (addr.Some? ==> addr.value in Addresses(s.tokens))
    ensures r != s ==> r.history == s.history + [PriceRow(addr, p.priceUsd.value, p.volume24h.value, p.liquidityUsd.value, now)]
  {
    match Observation(addr, p, now)
    case None => s
    case Some(row) =>
      match AppendPrice(s, row)
      case Success(s') => s'
      case Failure(_) => s
  }

  /** `record_event`: appends one event for `addr`; a pair without a token rolls back. */
  function RecordEvent(s: Store, addr: string, kind: EventKind, change: real, now: nat): (r: Store)
    ensures Valid(s) ==> Valid(r)
    ensures r.tokens == s.tokens && r.history == s.history
    ensures r != s <==> addr in Addresses(s.tokens)
    ensures r != s ==> r.events == s.events + [EventRow(addr, kind, change, now)]
  {
    match AppendEvent(s, EventRow(addr, kind, change, now))
    case Success(s') => s'
    case Failure(_) => s
  }

  /** What `get_stats` reports; `lastUpdate` is `None` where the bot shows "Never". */
  datatype Stats = Stats(tokenCount: nat, eventCount: nat, lastUpdate: Option<nat>)

  function TimeKeys(h: seq<PriceRow>): seq<Option<nat>>
  {
    seq(|h|, i requires 0 <= i < |h| => Some(h[i].timestamp))
  }

  /** `SELECT MAX(timestamp) FROM price_history`. */
  function LastUpdate(h: seq<PriceRow>): (r: Option<nat>)
    ensures r.None? <==> |h| == 0
    ensures r.Some? ==> exists i :: 0 <= i < |h| && h[i].timestamp == r.value
    ensures r.Some? ==> forall i :: 0 <= i < |h| ==> h[i].timestamp <= r.value
  {
    var keys := TimeKeys(h);
    var top := TopK(keys, 1);
    if |top| == 0 then
      assert |h| > 0 ==> Ranked(keys, 0);
      None
    else
      NewestTime(h, top);
      Some(h[top[0]].timestamp)
  }

  lemma NewestTime(h: seq<PriceRow>, top: seq<int>)
    requires top == TopK(TimeKeys(h), 1) && |top| == 1
    ensures 0 <= top[0] < |h|
    ensures forall i :: 0 <= i < |h| ==> h[i].timestamp <= h[top[0]].timestamp
  {
    var keys := TimeKeys(h);
    forall i | 0 <= i < |h|
      ensures h[i].timestamp <= h[top[0]].timestamp
    {
      if i != top[0] {
        assert i !in top;
        assert Ranked(keys, i);
        assert Precedes(keys, top[0], i);
      }
    }
  }

  /** `get_stats`: token count, event count and latest observation time. */
  function GetStats(s: Store): (r: Stats)
    ensures Valid(s) ==> r.tokenCount == |Addresses(s.tokens)|
    ensures r.eventCount == |s.events|
    ensures r.lastUpdate.None? <==> |s.history| == 0
    ensures r.lastUpdate.Some? ==> forall i :: 0 <= i < |s.history| ==> s.history[i].timestamp <= r.lastUpdate.value
    ensures r.lastUpdate.Some? ==> exists i :: 0 <= i < |s.history| && s.history[i].timestamp == r.lastUpdate.value
  {
    assert Valid(s) ==> |Addresses(s.tokens)| == |s.tokens| by {
      if Valid(s) { RowsAreKeys(s.tokens); }
    }
    Stats(|s.tokens|, |s.events|, LastUpdate(s.history))
  }

  /** A saved token adds one to the token count exactly when the store changed; the event
      count stays. */
  lemma StatsAfterSaveToken(s: Store, p: Pair, now: nat)
    requires Valid(s)
    ensures var r := SaveToken(s, p, now);
            && GetStats(r).tokenCount == GetStats(s).tokenCount + (if r != s then 1 else 0)
            && GetStats(r).eventCount == GetStats(s).eventCount
  {
    var r := SaveToken(s, p, now);
    if r != s {
      AddressesAppend(s.tokens, TokenRow(p, now).value);
    }
  }

  /** A recorded event adds one to the event count exactly when the store changed; the token
      count stays. */
  lemma StatsAfterRecordEvent(s: Store, addr: string, kind: EventKind, change: real, now: nat)
    requires Valid(s)
    ensures var r := RecordEvent(s, addr, kind, change, now);
            && GetStats(r).eventCount == GetStats(s).eventCount + (if r != s then 1 else 0)
            && GetStats(r).tokenCount == GetStats(s).tokenCount
  {
  }

  /** A saved observation moves the last update to the later of its old value and the clock. */
  lemma StatsAfterSavePrice(s: Store, addr: Option<string>, p: Pair, now: nat)
    ensures var r := SavePriceHistory(s, addr, p, now);
            r != s ==> GetStats(r).lastUpdate == Some(
              match GetStats(s).lastUpdate
              case None => now
              case Some(t) => if t < now then now else t)
  {
    var r := SavePriceHistory(s, addr, p, now);
    if r != s {
      LastUpdateAppend(s.history, r.history[|s.history|]);
    }
  }

  lemma LastUpdateAppend(h: seq<PriceRow>, row: PriceRow)
    ensures LastUpdate(h + [row]) == Some(
              match LastUpdate(h)
              case None => row.timestamp
              case Some(t) => if t < row.timestamp then row.timestamp else t)
  {
    var h' := h + [row];
    assert h'[|h|] == row;
    var t' := LastUpdate(h').value;
    var j :| 0 <= j < |h'| && h'[j].timestamp == t';
    match LastUpdate(h)
    case None =>
    case Some(last) =>
      var i :| 0 <= i < |h| && h[i].timestamp == last;
      assert h'[i] == h[i];
      if j < |h| {
        assert h'[j] == h[j];
      }
  }

  /** The number of rows `get_recent_tokens` returns when the caller gives no limit. */
  const DefaultRecentLimit: nat := 20

  function FirstSeenKeys(tokens: seq<Token>): seq<Option<nat>>
  {
    seq(|tokens|, i requires 0 <= i < |tokens| => Some(tokens[i].firstSeen))
  }

  /** `get_recent_tokens`: up to `limit` tokens, most recently first seen first. The
      query's four selected columns are the first four fields of each row. */
  function GetRecentTokens(s: Store, limit: nat := DefaultRecentLimit): (r: seq<Token>)
    ensures |r| == Min(limit, |s.tokens|)
    ensures forall a :: 0 <= a < |r| ==> r[a] in s.tokens
    ensures forall a, b :: 0 <= a < b < |r| ==> r[a].firstSeen >= r[b].firstSeen
    ensures Valid(s) ==> forall a, b :: 0 <= a < b < |r| ==> r[a].pairAddress != r[b].pairAddress
    ensures forall t :: t in s.tokens && t !in r ==> |r| == limit && (limit == 0 || t.firstSeen <= r[limit - 1].firstSeen)
  {
    var top := TopK(FirstSeenKeys(s.tokens), limit);
    var r := seq(|top|, a requires 0 <= a < |top| => s.tokens[top[a]]);
    RecentTokensOrdered(s, limit, top, r);
    r
  }

  lemma RecentTokensOrdered(s: Store, limit: nat, top: seq<int>, r: seq<Token>)
    requires top == TopK(FirstSeenKeys(s.tokens), limit)
    requires |r| == |top| && forall a :: 0 <= a < |top| ==> r[a] == s.tokens[top[a]]
    ensures |r| == Min(limit, |s.tokens|)
    ensures forall a :: 0 <= a < |r| ==> r[a] in s.tokens
    ensures forall a, b :: 0 <= a < b < |r| ==> r[a].firstSeen >= r[b].firstSeen
    ensures Valid(s) ==> forall a, b :: 0 <= a < b < |r| ==> r[a].pairAddress != r[b].pairAddress
    ensures forall t :: t in s.tokens && t !in r ==> |r| == limit && (limit == 0 || t.firstSeen <= r[limit - 1].firstSeen)
  {
    var keys := FirstSeenKeys(s.tokens);
    CountAllRanked(keys, |keys|);
    RecentTokensSorted(s.tokens, keys, top, r);
    RecentTokensComplete(s.tokens, keys, limit, top, r);
  }

  lemma RecentTokensSorted(tokens: seq<Token>, keys: seq<Option<nat>>, top: seq<int>, r: seq<Token>)
    requires keys == FirstSeenKeys(tokens)
    requires forall a, b :: 0 <= a < b < |top| ==> Precedes(keys, top[a], top[b])
    requires |r| == |top| && forall a :: 0 <= a < |top| ==> 0 <= top[a] < |tokens| && r[a] == tokens[top[a]]
    ensures forall a, b :: 0 <= a < b < |r| ==> r[a].firstSeen >= r[b].firstSeen
    ensures KeysUnique(tokens) ==> forall a, b :: 0 <= a < b < |r| ==> r[a].pairAddress != r[b].pairAddress
  {
    forall a, b | 0 <= a < b < |r|
      ensures r[a].firstSeen >= r[b].firstSeen
      ensures KeysUnique(tokens) ==> r[a].pairAddress != r[b].pairAddress
    {
      assert Precedes(keys, top[a], top[b]);
      assert keys[top[a]].value == r[a].firstSeen && keys[top[b]].value == r[b].firstSeen;
    }
  }

  lemma RecentTokensComplete(tokens: seq<Token>, keys: seq<Option<nat>>, limit: nat, top: seq<int>, r: seq<Token>)
    requires keys == FirstSeenKeys(tokens)
    requires forall i :: Ranked(keys, i) && i !in top ==> |top| == limit && (limit == 0 || Precedes(keys, top[limit - 1], i))
    requires |r| == |top| && forall a :: 0 <= a < |top| ==> 0 <= top[a] < |tokens| && r[a] == tokens[top[a]]
    ensures forall t :: t in tokens && t !in r ==> |r| == limit && (limit == 0 || t.firstSeen <= r[limit - 1].firstSeen)
  {
    forall t | t in tokens && t !in r
      ensures |r| == limit && (limit == 0 || t.firstSeen <= r[limit - 1].firstSeen)
    {
      var i :| 0 <= i < |tokens| && tokens[i] == t;
      assert Ranked(keys, i);
      if limit > 0 {
        assert keys[top[limit - 1]].value == r[limit - 1].firstSeen;
      }
    }
  }
}

=== FILE: ranking.dfy ===
/** `ORDER BY key DESC LIMIT k` over the rows of a table.

    A row takes part when it has a key (`Some`). Rows with a larger key come first;
    among rows with the same key the later row (the one appended last) comes first,
    which is the order the rows were written in under a clock that never goes back. */
module Ranking {
  import opened Common

  predicate Ranked(keys: seq<Option<nat>>, i: int)
  {
    0 <= i < |keys| && keys[i].Some?
  }

  /** Row `i` is listed before row `j`. */
  predicate Precedes(keys: seq<Option<nat>>, i: int, j: int)
  {
    && Ranked(keys, i) && Ranked(keys, j)
    && (keys[i].value > keys[j].value || (keys[i].value == keys[j].value && i > j))
  }

  /** Row `i` can still be listed: it has a key and was not listed yet. */
  predicate Eligible(keys: seq<Option<nat>>, taken: set<int>, i: int)
  {
    Ranked(keys, i) && i !in taken
  }

  /** The number of eligible rows among the first `n`. */
  function CountEligible(keys: seq<Option<nat>>, taken: set<int>, n: int): nat
    requires 0 <= n <= |keys|
  {
    if n == 0 then 0
    else CountEligible(keys, taken, n - 1) + (if Eligible(keys, taken, n - 1) then 1 else 0)
  }

  /** The number of rows that have a key. */
  function CountRanked(keys: seq<Option<nat>>): nat
  {
    CountEligible(keys, {}, |keys|)
  }

  lemma {:induction false} CountAfterTaking(keys: seq<Option<nat>>, taken: set<int>, m: int, n: int)
    requires 0 <= n <= |keys|
    requires Eligible(keys, taken, m)
    ensures CountEligible(keys, taken + {m}, n) == CountEligible(keys, taken, n) - (if m < n then 1 else 0)
  {
    if n > 0 {
      CountAfterTaking(keys, taken, m, n - 1);
    }
  }

  lemma {:induction false} CountNoneEligible(keys: seq<Option<nat>>, taken: set<int>, n: int)
    requires 0 <= n <= |keys|
    requires forall i :: 0 <= i < n ==> !Eligible(keys, taken, i)
    ensures CountEligible(keys, taken, n) == 0
  {
    if n > 0 {
      CountNoneEligible(keys, taken, n - 1);
    }
  }

  /** When every row has a key, every row is counted. */
  lemma {:induction false} CountAllRanked(keys: seq<Option<nat>>, n: int)
    requires 0 <= n <= |keys|
    requires forall i :: 0 <= i < |keys| ==> keys[i].Some?
    ensures CountEligible(keys, {}, n) == n
  {
    if n > 0 {
      CountAllRanked(keys, n - 1);
    }
  }

  /** The first eligible row in listing order among the first `n`. */
  function Best(keys: seq<Option<nat>>, taken: set<int>, n: int): (r: Option<int>)
    requires 0 <= n <= |keys|
    ensures r.Some? ==> r.value < n && Eligible(keys, taken, r.value)
    ensures r.Some? ==> forall i :: 0 <= i < n && Eligible(keys, taken, i) && i != r.value ==> Precedes(keys, r.value, i)
    ensures r.None? ==> forall i :: 0 <= i < n ==> !Eligible(keys, taken, i)
  {
    if n == 0 then None
    else
      var b := Best(keys, taken, n - 1);
      if !Eligible(keys, taken, n - 1) then b
      else if b.None? || keys[n - 1].value >= keys[b.value].value then Some(n - 1)
      else b
  }

  /** The first `k` eligible rows in listing order, as row positions. */
  function TopKFrom(keys: seq<Option<nat>>, k: nat, taken: set<int>): (r: seq<int>)
    ensures |r| == Min(k, CountEligible(keys, taken, |keys|))
    ensures forall a :: 0 <= a < |r| ==> Eligible(keys, taken, r[a])
    ensures forall a, b :: 0 <= a < b < |r| ==> Precedes(keys, r[a], r[b])
    ensures forall i :: Eligible(keys, taken, i) && i !in r ==> |r| == k && (k == 0 || Precedes(keys, r[k - 1], i))
    decreases k
  {
    if k == 0 then []
    else
      match Best(keys, taken, |keys|)
      case None =>
        CountNoneEligible(keys, taken, |keys|);
        []
      case Some(m) =>
        CountAfterTaking(keys, taken, m, |keys|);
        [m] + TopKFrom(keys, k - 1, taken + {m})
  }

  /** `ORDER BY key DESC LIMIT k`: the positions of the first `k` keyed rows. */
  function TopK(keys: seq<Option<nat>>, k: nat): (r: seq<int>)
    ensures |r| == Min(k, CountRanked(keys))
    ensures forall a :: 0 <= a < |r| ==> Ranked(keys, r[a])
    ensures forall a, b :: 0 <= a < b < |r| ==> Precedes(keys, r[a], r[b])
    ensures forall i :: Ranked(keys, i) && i !in r ==> |r| == k && (k == 0 || Precedes(keys, r[k - 1], i))
  {
    TopKFrom(keys, k, {})
  }
}

=== FILE: store.dfy ===
/** The three tables the bot writes (tokens, price_history, events) and their constraints. */
module Store {
  import opened Common

  /** A `tokens` row. `firstSeen` is the insertion time. */
  datatype Token = Token(
    pairAddress: string,
    chainId: string,
    baseSymbol: string,
    quoteSymbol: string,
    creatorAddress: Option<string>,
    createdAt: Option<int>,
    firstSeen: nat)

  /** A `price_history` row; its position in the table stands for its serial id. The
      `pair_address` column may be NULL (`None`): only its foreign key constrains it. */
  datatype PriceRow = PriceRow(pairAddress: Option<string>, priceUsd: real, volume24h: real, liquidityUsd: real, timestamp: nat)

  datatype EventKind = Pump | Rug
  {
    /** The text stored in `events.event_type`. */
    function Label(): string
    {
      if Pump? then "PUMP" else "RUG"
    }
  }

  /** Reads an `events.event_type` value back: the two labels are distinct, so the stored
      text determines the kind, and no other text names one. */
  function ParseLabel(t: string): (r: Option<EventKind>)
    ensures forall k: EventKind :: r == Some(k) <==> k.Label() == t
  {
    if t == "PUMP" then Some(Pump) else if t == "RUG" then Some(Rug) else None
  }

  /** An `events` row. */
  datatype EventRow = EventRow(pairAddress: string, kind: EventKind, priceChange: real, timestamp: nat)

  /** The database contents: each table in row order. */
  datatype Store = Store(tokens: seq<Token>, history: seq<PriceRow>, events: seq<EventRow>)

  const Empty := Store([], [], [])

  /** The values of the `tokens.pair_address` column. */
  function Addresses(tokens: seq<Token>): set<string>
  {
    set t | t in tokens :: t.pairAddress
  }

  /** `pair_address` is the primary key of `tokens`. */
  predicate KeysUnique(tokens: seq<Token>)
  {
    forall i, j :: 0 <= i < j < |tokens| ==> tokens[i].pairAddress != tokens[j].pairAddress
  }

  /** The primary key and the two foreign keys `REFERENCES tokens(pair_address)`. A foreign
      key holds for a NULL reference, so a price row without an address is valid; event rows
      always carry an address, because the bot records events only for tracked pairs. */
  predicate Valid(s: Store)
  {
    && KeysUnique(s.tokens)
    && (forall r :: r in s.history && r.pairAddress.Some? ==> r.pairAddress.value in Addresses(s.tokens))
    && (forall e :: e in s.events ==> e.pairAddress in Addresses(s.tokens))
  }

  lemma AddressesAppend(tokens: seq<Token>, t: Token)
    ensures Addresses(tokens + [t]) == Addresses(tokens) + {t.pairAddress}
  {
    var ext := tokens + [t];
    forall a | a in Addresses(tokens)
      ensures a in Addresses(ext)
    {
      var u :| u in tokens && u.pairAddress == a;
      assert u in ext;
    }
    assert t in ext;
  }

  /** Rows are only ever added to `tokens`, so its key set only grows. */
  lemma AddressesGrow(tokens: seq<Token>, more: seq<Token>)
    requires tokens <= more
    ensures Addresses(tokens) <= Addresses(more)
  {
    forall a | a in Addresses(tokens)
      ensures a in Addresses(more)
    {
      var u :| u in tokens && u.pairAddress == a;
      var i :| 0 <= i < |tokens| && tokens[i] == u;
      assert more[i] == u;
    }
  }

  /** A foreign-key violation: the referenced pair address has no `tokens` row. */
  datatype StoreError = NotFound(pairAddress: string)

  /** `INSERT INTO tokens ... ON CONFLICT (pair_address) DO NOTHING`. */
  function InsertToken(s: Store, t: Token): (r: Store)
    ensures Valid(s) ==> Valid(r)
    ensures t.pairAddress in Addresses(s.tokens) ==> r == s
    ensures t.pairAddress !in Addresses(s.tokens) ==> r.tokens == s.tokens + [t]
    ensures r.history == s.history && r.events == s.events
    ensures Addresses(r.tokens) == Addresses(s.tokens) + {t.pairAddress}
  {
    AddressesAppend(s.tokens, t);
    if t.pairAddress in Addresses(s.tokens) then s
    else
      var r := s.(tokens := s.tokens + [t]);
      assert forall i :: 0 <= i < |s.tokens| ==> s.tokens[i] in s.tokens;
      r
  }

  /** `INSERT INTO price_history ...`, refused when the row names a pair that has no token;
      a row with a NULL address is not checked. */
  function AppendPrice(s: Store, row: PriceRow): (r: Result<Store, StoreError>)
    ensures r.Failure? <==> row.pairAddress.Some? && row.pairAddress.value !in Addresses(s.tokens)
    ensures r.Failure? ==> r.error == NotFound(row.pairAddress.value)
    ensures r.Success? ==> r.value == s.(history := s.history + [row])
    ensures r.Success? && Valid(s) ==> Valid(r.value)
  {
    match row.pairAddress
    case Some(a) =>
      if a in Addresses(s.tokens) then Success(s.(history := s.history + [row]))
      else Failure(NotFound(a))
    case None => Success(s.(history := s.history + [row]))
  }

  /** `INSERT INTO events ...`, refused when the pair has no token. */
  function AppendEvent(s: Store, row: EventRow): (r: Result<Store, StoreError>)
    ensures r.Failure? <==> row.pairAddress !in Addresses(s.tokens)
    ensures r.Failure? ==> r.error == NotFound(row.pairAddress)
    ensures r.Success? ==> r.value == s.(events := s.events + [row])
    ensures r.Success? && Valid(s) ==> Valid(r.value)
  {
    if row.pairAddress in Addresses(s.tokens) then Success(s.(events := s.events + [row]))
    else Failure(NotFound(row.pairAddress))
  }

  /** The number of `tokens` rows with the given key. */
  function CountKey(tokens: seq<Token>, a: string): nat
  {
    if |tokens| == 0 then 0
    else CountKey(tokens[..|tokens| - 1], a) + (if tokens[|tokens| - 1].pairAddress == a then 1 else 0)
  }

  lemma {:induction false} CountKeyAbsent(tokens: seq<Token>, a: string)
    requires a !in Addresses(tokens)
    ensures CountKey(tokens, a) == 0
  {
    if |tokens| > 0 {
      var init := tokens[..|tokens| - 1];
      assert tokens == init + [tokens[|tokens| - 1]];
      AddressesAppend(init, tokens[|tokens| - 1]);
      CountKeyAbsent(init, a);
    }
  }

  /** Under the primary key a present key has exactly one row. */
  lemma {:induction false} KeyHasOneRow(tokens: seq<Token>, a: string)
    requires KeysUnique(tokens)
    requires a in Addresses(tokens)
    ensures CountKey(tokens, a) == 1
  {
    var n := |tokens|;
    var init := tokens[..n - 1];
    var last := tokens[n - 1];
    assert tokens == init + [last];
    AddressesAppend(init, last);
    assert KeysUnique(init);
    if last.pairAddress == a {
      CountKeyAbsent(init, a);
    } else {
      KeyHasOneRow(init, a);
    }
  }

  /** Under the primary key the table has one row per distinct key. */
  lemma {:induction false} RowsAreKeys(tokens: seq<Token>)
    requires KeysUnique(tokens)
    ensures |Addresses(tokens)| == |tokens|
  {
    if |tokens| == 0 {
      assert Addresses(tokens) == {};
    } else {
      var n := |tokens|;
      var init := tokens[..n - 1];
      var last := tokens[n - 1];
      assert tokens == init + [last];
      AddressesAppend(init, last);
      assert KeysUnique(init);
      RowsAreKeys(init);
    }
  }

  /** The database catalog before start-up: each table exists with its rows, or does not exist. */
  datatype Catalog = Catalog(tokens: Option<seq<Token>>, history: Option<seq<PriceRow>>, events: Option<seq<EventRow>>)

  /** Connecting or running the schema statements failed; the error reaches the caller. */
  datatype SetupError = SetupFailed

  function CatalogOf(s: Store): Catalog
  {
    Catalog(Some(s.tokens), Some(s.history), Some(s.events))
  }

  function TableOrEmpty<T>(t: Option<seq<T>>): seq<T>
  {
    match t
    case Some(rows) => rows
    case None => []
  }

  /** `setup_database`: each `CREATE TABLE IF NOT EXISTS` creates a missing table empty and
      leaves an existing one as it is; a failure of the backend is re-raised. */
  function SetupDatabase(c: Catalog, backendUp: bool): (r: Result<Store, SetupError>)
    ensures r.Failure? <==> !backendUp
    ensures r.Success? ==> (c.tokens.Some? ==> r.value.tokens == c.tokens.value) && (c.tokens.None? ==> r.value.tokens == [])
    ensures r.Success? ==> (c.history.Some? ==> r.value.history == c.history.value) && (c.history.None? ==> r.value.history == [])
    ensures r.Success? ==> (c.events.Some? ==> r.value.events == c.events.value) && (c.events.None? ==> r.value.events == [])
  {
    if !backendUp then Failure(SetupFailed)
    else Success(Store(TableOrEmpty(c.tokens), TableOrEmpty(c.history), TableOrEmpty(c.events)))
  }

  /** Setting up an already set-up database changes nothing, and a fresh one starts empty and valid. */
  lemma SetupIdempotent(c: Catalog)
    ensures SetupDatabase(Catalog(None, None, None), true) == Success(Empty) && Valid(Empty)
    ensures SetupDatabase(c, true).Success?
    ensures SetupDatabase(CatalogOf(SetupDatabase(c, true).value), true) == SetupDatabase(c, true)
  {
  }
}

=== FILE: text.dfy ===
/** Lower-casing of identifiers (chain ids, creator addresses). */
module Text {

  predicate IsUpper(c: char)
  {
    'A' <= c <= 'Z'
  }

  function LowerChar(c: char): char
  {
    if IsUpper(c) then (c as int + 32) as char else c
  }

  /** `str.lower()` restricted to ASCII letters. */
  function Lower(s: string): (r: string)
    ensures |r| == |s|
    ensures forall i :: 0 <= i < |r| ==> !IsUpper(r[i])
    ensures forall i :: 0 <= i < |s| && !IsUpper(s[i]) ==> r[i] == s[i]
    ensures forall i :: 0 <= i < |s| && IsUpper(s[i]) ==> r[i] as int == s[i] as int + 32
  {
    seq(|s|, i requires 0 <= i < |s| => LowerChar(s[i]))
  }

  /** Lower-casing twice is lower-casing once. */
  lemma LowerIdempotent(s: string)
    ensures Lower(Lower(s)) == Lower(s)
  {
    var once := Lower(s);
    assert forall i :: 0 <= i < |once| ==> !IsUpper(once[i]);
  }

  /** A string holding an upper-case letter is never the lower-casing of anything. */
  lemma NotALowering(s: string, d: string, k: nat)
    requires k < |d| && IsUpper(d[k])
    ensures Lower(s) != d
  {
    if |s| == |d| {
      assert !IsUpper(Lower(s)[k]);
    }
  }

  /** The list comprehension `[c.lower() for c in xs]`. */
  function LowerAll(xs: seq<string>): seq<string>
  {
    seq(|xs|, i requires 0 <= i < |xs| => Lower(xs[i]))
  }

  /** Membership in the lower-cased list means some entry lower-cases to `x`. */
  lemma InLowerAll(xs: seq<string>, x: string)
    ensures x in LowerAll(xs) <==> exists c :: c in xs && Lower(c) == x
  {
    var ys := LowerAll(xs);
    if x in ys {
      var i :| 0 <= i < |ys| && ys[i] == x;
      assert xs[i] in xs && Lower(xs[i]) == x;
    }
    if exists c :: c in xs && Lower(c) == x {
      var c :| c in xs && Lower(c) == x;
      var i :| 0 <= i < |xs| && xs[i] == c;
      assert ys[i] == x;
    }
  }
}
